=== FILE: README.md ===
# SymbiontUI image index and viewer pages in Dafny

This project models the image-browsing core of SymbiontUI, a small Flask front end for Stable Diffusion output folders. It covers three pieces:

- **The live image index** (`symbiontui/image_repository.py`). It is a Python dict from a relative-path key to an `Image` record, with these operations:
  - `add_image`, `remove_image`, `update_image`;
  - a category-filtered `list` and a fixed `categories`;
  - the initial walk;
  - the watchdog handler that maps create/delete/modify events to those operations.
- **The library page** (`library()` in `symbiontui/main.py`). It covers:
  - the default category;
  - the previous/next relpaths around the selected image;
  - folding the PNG `tEXt` chunks of the selected file into a dict.
- **The prototype directory viewer** (`symbiontui/viewer.py`). It covers:
  - a per-directory listing of image files, newest first, with a stable sort;
  - the directory-traversal guard;
  - the sorted subdirectory names;
  - the same previous/next rule;
  - the `tEXt` metadata of the selected file.

Everything is immutable data and pure functions. The index is a `Dict`: an ordered association list with unique keys, so Python's insertion-ordered iteration is observable in the model. Absolute paths are sequences of segments (`/srv/img/a.png` is `["srv", "img", "a.png"]`). `Render` turns them back into the strings the code passes around. What the operating system and the libraries answer is a given `FileSystem` value of total functions keyed by path string:
- `os.listdir`, `os.path.isfile`, `os.path.isdir`;
- `st_ctime`;
- `imghdr.what`;
- pypng's chunk stream.

Modules, one per file:

| module | file | models |
|---|---|---|
| `Wrappers` | wrappers.dfy | `Option` and `Result` |
| `Seqs` | seqs.dfy | `list.index`, list comprehensions with a condition, `split`, `join` |
| `Strings` | strings.dfy | the `in` substring test and `str` ordering |
| `OrderedDict` | ordered_dict.dfy | Python `dict` with insertion order |
| `Sorting` | sorting.dfy | Python's stable `sorted`, with `reverse=True` |
| `Paths` | paths.dfy | `posixpath` functions: `join`, `relpath`, `abspath`, `commonpath`, `splitext` |
| `PngText` | png_text.dfy | the `tEXt` folding loop |
| `Files` | files.dfy | the filesystem facts, and the metadata read both pages share |
| `Navigation` | navigation.dfy | previous/next around `xs.index(x)` |
| `ImageRepository` | image_repository.dfy | the index, its walk and its event handler |
| `Library` | library.dfy | `library()` |
| `Viewer` | viewer.dfy | the viewer's `list()` and `index()` |

### Behaviour of the code worth knowing

- `list()` returns the records in the dict's insertion order. `Image` carries no timestamps.
- A modification event for a path that `imghdr` no longer recognises leaves the index unchanged; the record stays.
- `update_image` is `remove_image` then `add_image`, so the key moves to the end of iteration order.
- A `tEXt` payload is split on every null byte and unpacked into exactly two names. A payload with no null byte, or with two or more, raises `ValueError`.
- The key and the value are then decoded as strict UTF-8. A byte sequence that is not valid UTF-8 raises `UnicodeDecodeError`, although the PNG standard writes `tEXt` text in Latin-1; a single `0xA9` byte is enough.
- The page keeps each metadata key at the position of its first `tEXt` chunk and gives it the value of its last one.
- The handler catches no exceptions. Move events are not handled, so a moved file keeps its old key until a later event removes it.
- The key of a file directly in the watched directory is `./name`, because `relpath` of the root itself is `.`.
- The library page's default category is `'images'`, which classification never produces, so the default listing is always empty.

## Model

| member | source | states |
|---|---|---|
| ImageRepository.Category | symbiontui/image_repository.py:41-45 | classification is total and single-valued: `["grid"]` exactly when the basename contains `grid` at some position, `["image"]` otherwise |
| ImageRepository.Key | symbiontui/image_repository.py:54 | the key ends with the file's basename, preceded by a separator for a normal path; KeyTopLevel, KeyNested, KeyAsJoin and KeyInjective characterise it for every file below the watched directory |
| ImageRepository.AddImage | symbiontui/image_repository.py:53-61 | the key derived from the path now holds a record with `relpath` equal to that key, the rendered absolute path, no tags, the basename minus its extension as name, and the path's category; every other key keeps its value; an existing key keeps its position, a new one goes last; the index invariant is preserved |
| ImageRepository.RemoveImage | symbiontui/image_repository.py:63-66 | never fails: afterwards the key is absent, every other key keeps its value and the remaining keys keep their relative order |
| ImageRepository.UpdateImage | symbiontui/image_repository.py:68-70 | the same key-to-record mapping as `add_image`, with the key moved to the end of iteration order |
| ImageRepository.Store | symbiontui/image_repository.py:55 | the index assignment: the key holds the record, every other key is unchanged, an existing key keeps its position and a new one goes last; a sound record keeps the index invariant |
| ImageRepository.Unstore | symbiontui/image_repository.py:65-66 | the guarded deletion: the key is absent, every other key is unchanged, the remaining keys keep their order, and the invariant is kept |
| ImageRepository.StoreAfterUnstore | symbiontui/image_repository.py:68-70 | deleting then assigning a key gives the same value for every key as assigning it directly, with the key moved to the end |
| ImageRepository.List | symbiontui/image_repository.py:72-75 | without a category (or with an empty one) all records in insertion order; otherwise exactly the records whose category list contains it, each as often as in the index, as an order-preserving subsequence |
| ImageRepository.Categories | symbiontui/image_repository.py:77-78 | a fixed answer independent of the index that contains every category classification can produce and nothing else |
| ImageRepository.AddIdempotent | symbiontui/image_repository.py:53-61 | adding the same path twice gives the same index as adding it once |
| ImageRepository.AddThenRemove | symbiontui/image_repository.py:53-66 | add then remove leaves the key absent, and restores the original index when the key was new |
| ImageRepository.DefaultCategoryMatchesNothing | symbiontui/image_repository.py:72-75 | in every index the operations can build, listing category `images` yields nothing |
| ImageRepository.CategoriesCoverRecords | symbiontui/image_repository.py:77-78 | every stored record is listed under one of the offered categories |
| ImageRepository.KeyTopLevel | symbiontui/image_repository.py:54 | a file directly in the watched directory is keyed `./name` |
| ImageRepository.KeyNested | symbiontui/image_repository.py:54 | a file in a subdirectory is keyed by its segments below the watched directory joined with `/` |
| ImageRepository.KeyAsJoin | symbiontui/image_repository.py:54 | every key is the `/`-join of the key segments of the file's position below the root |
| ImageRepository.KeyInjective | symbiontui/image_repository.py:54 | two different files under the watched directory never share a key |
| ImageRepository.Dispatch | symbiontui/image_repository.py:16-30 | directory events and event kinds other than create/delete/modify never change the index; create and modify change it only for files `imghdr` recognises; delete removes the key; no other key changes its value; a created key keeps its place if present and otherwise goes last, a modified key moves last, and a deletion keeps the remaining keys in order |
| ImageRepository.DeleteIgnoresDetection | symbiontui/image_repository.py:24-26 | a deletion is applied whatever `imghdr` would answer |
| ImageRepository.LoadImages | symbiontui/image_repository.py:47-51 | after the walk the index holds a key exactly when it held it before or an accepted walked file has it; the invariant is preserved |
| ImageRepository.LoadOne | symbiontui/image_repository.py:49-51 | one walk step adds a key only for a regular file `imghdr` recognises |
| ImageRepository.Open | symbiontui/image_repository.py:33-36 | the index built by the constructor satisfies the invariant |
| OrderedDict.Get | symbiontui/image_repository.py:65 | the lookup is absent exactly when the key is not present, and otherwise gives the one value stored with it |
| OrderedDict.Put | symbiontui/image_repository.py:55 | assignment: the key maps to the new value, others unchanged, existing key keeps its place, new key goes last |
| OrderedDict.Remove | symbiontui/image_repository.py:65-66 | guarded `del`: key gone, others unchanged, remaining keys in the same order |
| OrderedDict.PutIdempotent | symbiontui/image_repository.py:55 | assigning the same value twice is assigning it once |
| OrderedDict.PutRemove | symbiontui/image_repository.py:65-66 | deleting a freshly inserted key restores the dict |
| OrderedDict.Extensionality | symbiontui/image_repository.py:35 | two dicts with the same key order and the same value for every key are equal |
| Paths.SplitExt | symbiontui/image_repository.py:56 | the name splits into stem plus extension; the extension is empty or starts at the last dot, and is non-empty exactly when that dot has a non-dot character before it |
| Paths.CommonPrefix | symbiontui/viewer.py:27 | the result is a prefix of both paths and cannot be extended |
| Paths.RelPath | symbiontui/image_repository.py:54 | `relpath` is never empty for a normal path and is `.` exactly when the path is the start; below the start it is the remaining segments joined with `/`, above it one `..` per level |
| Paths.JoinPath | symbiontui/image_repository.py:54 | `join` returns an absolute second part as it is; otherwise the result starts with the first part, ends with the second and has a separator just before the second when the first is non-empty; Viewer.EntryPathRender shows it extends a rendered path by one segment |
| Paths.AbsPath | symbiontui/viewer.py:26 | resolving against a normal working directory yields a normal path |
| Paths.AbsPathRender | symbiontui/viewer.py:26 | `abspath` of a rendered normal path gives the path back |
| Paths.CommonPathStartsWith | symbiontui/viewer.py:27 | the string test `commonpath([root, p]).startswith(root)` holds exactly when `root` is a segment-wise prefix of `p` |
| Strings.IsSubstringIff | symbiontui/image_repository.py:43 | the recursive substring test agrees with "occurs at some position" |
| Strings.LexLeTotal | symbiontui/viewer.py:34-36 | any two names are comparable in `str` order |
| Strings.LexLeTransitive | symbiontui/viewer.py:34-36 | `str` order is transitive |
| Strings.LexLeAntisymmetric | symbiontui/viewer.py:34-36 | names that are each at most the other are equal |
| Seqs.IndexOf | symbiontui/main.py:59 | `list.index` after an `in` test: absent exactly when the element is absent, otherwise its first position |
| Seqs.Filter | symbiontui/image_repository.py:75 | the comprehension keeps exactly the elements meeting the condition, with their multiplicities, as a subsequence |
| Seqs.Split | symbiontui/main.py:84 | `split` gives one more piece than there are separators, none containing it, and joining the pieces gives the input back |
| Seqs.SplitJoin | symbiontui/main.py:84 | splitting undoes joining pieces that contain no separator |
| Sorting.Sort | symbiontui/viewer.py:13-17 | the result is a permutation of the input, ordered by any total preorder |
| Sorting.SortStable | symbiontui/viewer.py:13-17 | elements the order cannot tell apart keep their input order |
| Sorting.SortFilter | symbiontui/viewer.py:12-17 | sorting the comprehension gives exactly the elements meeting the condition, each as often as in the input |
| PngText.SplitText | symbiontui/main.py:84 | unpacking succeeds exactly when the payload has one null byte, giving the bytes before and after it; no null byte is exactly the "not enough values" error, two or more exactly the "too many values" error |
| PngText.SplitTextAt | symbiontui/main.py:84 | with its only null byte at position `i`, the key is the first `i` bytes and the value the rest |
| PngText.SplitTextJoin | symbiontui/main.py:84 | unpacking a key and a value joined around one null byte gives them back |
| PngText.DecodeText | symbiontui/main.py:84-85 | unpacking then decoding succeeds exactly when the payload unpacks and both halves are UTF-8, with the halves around the null byte; a payload that does not unpack raises the unpacking error itself, and one that unpacks but fails raises the decoding error |
| PngText.AsciiIsUtf8 | symbiontui/main.py:85 | ASCII bytes always decode |
| PngText.LoneContinuationIsNotUtf8 | symbiontui/main.py:85 | bytes starting with a continuation byte such as `0xA9` do not decode |
| PngText.NotUtf8Fails | symbiontui/main.py:84-85 | a single `tEXt` chunk whose value is not UTF-8 makes the loop raise the decoding error |
| PngText.Latin1TextFails | symbiontui/main.py:84-85 | the Latin-1 payload `A NUL 0xA9` makes the loop raise the decoding error |
| PngText.CollectText | symbiontui/main.py:80-85 | the loop succeeds exactly when every `tEXt` payload unpacks and its key and value decode as UTF-8 |
| PngText.CollectTextFirstError | symbiontui/main.py:82-85 | the loop raises an error exactly when some `tEXt` chunk fails to unpack or decode, and the error it raises is that of the first such chunk, every earlier `tEXt` chunk having succeeded |
| PngText.CollectTextLastWins | symbiontui/main.py:82-85 | after a successful loop each key holds the value of its last `tEXt` chunk, and keeps its earlier entry when no chunk carries it |
| PngText.TextChunksKeyOrder | symbiontui/main.py:80-85 | the dict's keys are the keys of the contributing chunks in chunk order with every later repeat dropped: a key stays at its first chunk's position |
| PngText.LastTextIsLast | symbiontui/main.py:85 | the reference value for a key is absent exactly when no chunk carries it, and otherwise comes from a chunk with no later chunk carrying it |
| PngText.TextChunksLastWins | symbiontui/main.py:85 | folding from the empty dict, every key maps to its last chunk's value |
| PngText.OnlyTextCounts | symbiontui/main.py:83 | chunks of any other type do not affect the outcome |
| PngText.NoTextIsEmpty | symbiontui/main.py:80-85 | a chunk stream without `tEXt` chunks yields an empty dict, not an error |
| PngText.SingleText | symbiontui/main.py:80-85 | one `tEXt` chunk `key NUL value` with UTF-8 key and value yields exactly that entry |
| Files.PngMetadata | symbiontui/main.py:79-85 | metadata is present exactly when the file is detected as PNG and its chunks fold; the read fails exactly when the file is detected as PNG and a `tEXt` chunk fails to unpack or decode, with the loop's error; each key then holds its last chunk's value and sits at the position of its first chunk |
| Navigation.Adjacent | symbiontui/main.py:57-64 | absent element: no position, no neighbours; otherwise its first position, next exactly when it is not last (the following element), previous exactly when it is not first (the preceding element) |
| Navigation.AdjacentAt | symbiontui/main.py:59-64 | in a list without repetitions the neighbours of position `i` are positions `i - 1` and `i + 1` |
| Navigation.Boundaries | symbiontui/viewer.py:41-44 | the first element has no previous one and the last no next one |
| Navigation.NextPrevInverse | symbiontui/viewer.py:41-44 | stepping next then previous (or previous then next) returns to the start |
| Library.Select | symbiontui/main.py:53-66 | an image is selected exactly when a non-empty relpath is given and listed; then it is the first image with that relpath and next/prev are its neighbours' relpaths; otherwise all three are absent |
| Library.View | symbiontui/main.py:47-97 | the page fails exactly when the selected image is detected as PNG and its `tEXt` loop fails; otherwise it lists the selected category's images, with the selection, previous and next relpaths that the adjacency rule gives, the selected image's metadata as the shared read gives it (none without a selection), both categories and the selected category name |
| Library.DefaultPageIsEmpty | symbiontui/main.py:50-51 | without a category argument the page lists nothing, selects nothing, reads no metadata and offers both categories |
| Library.ListingHasDistinctRelpaths | symbiontui/main.py:56 | the relpaths of any listing of a valid index are pairwise different |
| Library.SelectNeighbours | symbiontui/main.py:56-64 | selecting the listed image at position `i` gives exactly the relpaths at `i - 1` and `i + 1`, none at the boundaries |
| Viewer.ListImages | symbiontui/viewer.py:11-18 | exactly the regular image files of the directory, each as often as `listdir` names it, with non-increasing ctime |
| Viewer.ListImagesStable | symbiontui/viewer.py:13-17 | files with equal ctime keep their `listdir` order |
| Viewer.ListImagesDistinct | symbiontui/viewer.py:12-17 | the listing has no repetitions when `listdir` has none |
| Viewer.NewestFirstIsTotalPreorder | symbiontui/viewer.py:15-16 | the descending-ctime key is a total preorder |
| Viewer.LexLeIsTotalPreorder | symbiontui/viewer.py:34-36 | `str` order is a total preorder |
| Viewer.Directories | symbiontui/viewer.py:33-36 | exactly the directory entries, each as often as `listdir` names it, in ascending `str` order |
| Viewer.Guard | symbiontui/viewer.py:27-29 | the result is the requested directory or the image directory, always inside the image directory, and is the requested one exactly when that lies segment-wise inside |
| Viewer.GuardRejectsSibling | symbiontui/viewer.py:27-29 | `/srv/img2` is a string extension of `/srv/img` but is replaced by `/srv/img` |
| Viewer.CurrentDir | symbiontui/viewer.py:24-29 | the current directory is the requested one made absolute or the image directory; it is the requested one exactly when that lies inside the image directory, so it is normal and inside the image directory, and it is the image directory when no `dir` is given |
| Viewer.Neighbourhood | symbiontui/viewer.py:38-44 | neighbours exist exactly for a non-empty listed name: its first position, and the listed names before and after it where they exist |
| Viewer.NeighbourhoodAt | symbiontui/viewer.py:38-44 | selecting position `i` of a listing gives the names at `i - 1` and `i + 1` |
| Viewer.EntryPathRender | symbiontui/viewer.py:49 | joining a plain name to a rendered normal directory gives the rendered path extended by that one segment |
| Viewer.MetadataPath | symbiontui/viewer.py:48-49 | a file is read for every non-empty `image` argument, and an absolute argument is read as given |
| Viewer.MetadataIgnoresGuard | symbiontui/viewer.py:48-52 | with no `dir` argument the guard keeps the image directory, yet an absolute `image` outside it is the file that is read |
| Viewer.MetadataEscapesImageDir | symbiontui/viewer.py:24-49 | with image directory `/srv/img`, no `dir` argument and `image=/etc/x.png`, the page stays in `/srv/img` and the file it reads resolves to `/etc/x.png`, outside it |
| Viewer.ConfinedMetadataPath | symbiontui/viewer.py:48-49 | a file is read only for a non-empty listed name, at the same path as `index()` as written would use |
| Viewer.ConfinedMetadataStaysInside | symbiontui/viewer.py:48-52 | the file the corrected page reads resolves to a listed entry of the guarded directory, hence inside the image directory |
| Viewer.Index | symbiontui/viewer.py:22-71 | `index()` as written fails exactly when the joined `image` path is detected as PNG and its `tEXt` loop fails; otherwise the page shows the guarded current directory (inside the image directory), its sorted subdirectories and image listing, the `image` argument as given, the neighbours of the selected name, the image directory, and the metadata the shared read gives for the joined path (none without a non-empty `image` argument) |
| Viewer.ConfinedIndex | symbiontui/viewer.py:22-71 | as `index()`, failing exactly when a listed selected image is detected as PNG and its `tEXt` loop fails, with the same directories, listing, selection, neighbours and image directory, and metadata only as the shared read gives it for a listed image |

## Left out

- Flask routing, `render_template`, the `/image` and `/download` routes (symbiontui/main.py:99-113, symbiontui/viewer.py:72-83) and argparse startup: request plumbing and I/O.
- The watchdog `Observer` thread and its scheduling (symbiontui/image_repository.py:37-39): concurrency. Only the event-to-operation mapping is modelled, one event at a time.
- `os.walk` enumeration order: `ImageRepository.LoadImages` takes the walked files as a given sequence of paths.
- `os.stat` and `image_metadata`, and `convert_unix_to_local` (symbiontui/main.py:32-45, 72-77): timestamps and time zones.
- Exceptions from the filesystem and libraries: `imghdr.what` on a vanished file, `os.listdir` on a missing directory, pypng's chunk parsing errors. The filesystem facts are total functions. The only errors modelled are the tuple-unpacking `ValueError` and the `UnicodeDecodeError` of `.decode()`.
- The `print` for an unknown selection (symbiontui/main.py:66): console output.
- The text `.decode()` produces: keys and values stay byte sequences once they are known to be UTF-8. Strict UTF-8 decoding is injective, so the dict sees the same keys either way.
- The `//` root that `normpath` preserves: paths are absolute segment sequences rooted at `/`.
- symbiontui/automatic1111.py, vscode/diffusioncraft/src/extension.ts and py/server/pack/stable_diffusion.py are not part of this model. They are a directory-layout lookup, an editor webview and a GPU pipeline.
- ImageRepository.AddImage: the stored `abspath` is the rendered normal path. The source stores whatever string the walk or the event passed, which is the same path written possibly differently.
- Viewer.ListImages: `st_ctime` is an integer rather than a float.
- Viewer.ListImagesDistinct: relies on `listdir` naming each entry once, which is stated as a precondition.
- Viewer.ConfinedMetadataStaysInside: relies on directory entries being plain names, which is stated as a precondition.

## Findings

| source | as written | input that shows it | evidently intended | confidence | as-written member | corrected member |
|---|---|---|---|---|---|---|
| symbiontui/viewer.py:48-52 | the `image` argument is joined to the guarded directory and that file is stat-ed, probed by `imghdr` and parsed as PNG, with no containment check; an absolute argument replaces the directory entirely and `..` segments climb out of it | no `dir` argument, image directory `/srv/img`, `image=/etc/x.png`: the guard keeps `/srv/img`, and `/etc/x.png` is read | the traversal guard of lines 27-29 also confines the selected file: read metadata only for an image the page lists | medium, not executed | Viewer.MetadataIgnoresGuard | Viewer.ConfinedMetadataStaysInside |

=== FILE: files.dfy ===
/** The filesystem and library facts the code asks for, as given functions of
    the path string it passes: `os.listdir`, `os.path.isfile`, `os.path.isdir`,
    `os.stat(...).st_ctime`, `imghdr.what` and the chunk stream of
    `png.Reader(filename=...).chunks()`. */
module Files {
  import opened Wrappers
  import opened Seqs
  import opened PngText
  import opened OrderedDict

  /** The answer of `imghdr.what`: `None` for a file it does not recognise,
      otherwise the format name, of which only `'png'` is told apart. */
  datatype Format = Png | OtherImage

  /** The truth value of `imghdr.what(path)`: any recognised format. */
  predicate IsImage(f: Option<Format>) {
    f.Some?
  }

  datatype FileSystem = FileSystem(
    listdir: string -> seq<string>,
    isFile: string -> bool,
    isDir: string -> bool,
    ctime: string -> int,
    what: string -> Option<Format>,
    chunks: string -> seq<Chunk>)

  /** The metadata both pages read for the file at `path`, if any: nothing
      unless `imghdr` reports a PNG, then its `tEXt` chunks folded into a dict,
      or the unpacking or decoding error that aborts the request. Each key
      sits at its first chunk and holds its last chunk's value. */
  function PngMetadata(fs: FileSystem, path: Option<string>): (r: Result<Option<Dict<Bytes, Bytes>>, TextError>)
    ensures r.Failure? <==>
      path.Some? && fs.what(path.value) == Some(Png) && TextChunks(fs.chunks(path.value)).Failure?
    ensures r.Failure? ==> r.error == TextChunks(fs.chunks(path.value)).error
    ensures r.Success? && r.value.Some? <==>
      path.Some? && fs.what(path.value) == Some(Png) && TextChunks(fs.chunks(path.value)).Success?
    ensures r.Success? && r.value.Some? ==>
      forall k :: Get(r.value.value, k) == LastText(fs.chunks(path.value), k)
    ensures r.Success? && r.value.Some? ==>
      Keys(r.value.value) == FirstOccurrences(EntryKeys(fs.chunks(path.value)))
  {
    if path.None? || fs.what(path.value) != Some(Png) then Success(None)
    else
      var chunks := fs.chunks(path.value);
      match TextChunks(chunks)
      case Failure(e) => Failure(e)
      case Success(d) =>
        assert forall k :: Get(d, k) == LastText(chunks, k) by {
          forall k ensures Get(d, k) == LastText(chunks, k) {
            TextChunksLastWins(chunks, k);
          }
        }
        TextChunksKeyOrder(chunks);
        Success(Some(d))
  }
}

=== FILE: image_repository.dfy ===
/** The in-memory image index of `image_repository.py`: a dict from a derived
    relative-path key to an `Image` record, kept up to date by filesystem
    events. Iteration order is the dict's insertion order and feeds the
    navigation order; `list` does not sort. */
module ImageRepository {
  import opened Wrappers
  import opened Seqs
  import opened Strings
  import opened OrderedDict
  import opened Paths
  import opened Files

  /** The `Image` dataclass. `category` is annotated `str` in the source but
      always holds a one-element list. */
  datatype Image = Image(name: string, relpath: string, abspath: string, tags: seq<string>, category: seq<string>)

  /** `directory` is the watched root; `images` the dict `self.images`. */
  datatype Repository = Repository(directory: Path, images: Dict<string, Image>)

  /** `_get_image_category`: `['grid']` when the file name contains `grid`
      (case-sensitive), `['image']` otherwise. */
  function Category(imagePath: Path): (r: seq<string>)
    ensures r == ["grid"] || r == ["image"]
    ensures r == ["grid"] <==> exists i :: OccursAt("grid", Basename(imagePath), i)
  {
    IsSubstringIff("grid", Basename(imagePath));
    if IsSubstring("grid", Basename(imagePath)) then ["grid"] else ["image"]
  }

  /** The key `add_image` and `remove_image` both compute:
      `os.path.join(os.path.relpath(os.path.dirname(p), directory), os.path.basename(p))`. */
  function Key(directory: Path, imagePath: Path): (r: string)
    ensures |Basename(imagePath)| <= |r| && r[|r| - |Basename(imagePath)|..] == Basename(imagePath)
    ensures Normal(imagePath) && imagePath != [] ==>
      |Basename(imagePath)| < |r| && r[|r| - |Basename(imagePath)| - 1] == '/'
  {
    assert Normal(imagePath) ==> Normal(Dirname(imagePath));
    JoinPath(RelPath(Dirname(imagePath), directory), Basename(imagePath))
  }

  /** The record `add_image` stores. */
  function Record(directory: Path, imagePath: Path): Image {
    Image(Stem(Basename(imagePath)), Key(directory, imagePath), Render(imagePath), [], Category(imagePath))
  }

  /** What every stored entry satisfies: it is filed under its own relpath,
      has no tags and carries exactly one of the two categories. */
  predicate SoundEntry(k: string, img: Image) {
    img.relpath == k && img.tags == [] && (img.category == ["grid"] || img.category == ["image"])
  }

  ghost predicate Valid(repo: Repository) {
    forall k :: Get(repo.images, k).Some? ==> SoundEntry(k, Get(repo.images, k).value)
  }

  /** `add_image(p)`: the key now holds a fresh record for `p`, no other key
      changes, an existing key keeps its place and a new key goes last. */
  function AddImage(repo: Repository, imagePath: Path): (r: Repository)
    ensures r.directory == repo.directory
    ensures
      var k := Key(repo.directory, imagePath);
      && Get(r.images, k).Some?
      && Get(r.images, k).value.relpath == k
      && Get(r.images, k).value.abspath == Render(imagePath)
      && Get(r.images, k).value.tags == []
      && Get(r.images, k).value.name + SplitExt(Basename(imagePath)).1 == Basename(imagePath)
      && Get(r.images, k).value.category == Category(imagePath)
    ensures forall k :: k != Key(repo.directory, imagePath) ==> Get(r.images, k) == Get(repo.images, k)
    ensures Key(repo.directory, imagePath) in Keys(repo.images) ==> Keys(r.images) == Keys(repo.images)
    ensures Key(repo.directory, imagePath) !in Keys(repo.images) ==>
      Keys(r.images) == Keys(repo.images) + [Key(repo.directory, imagePath)]
    ensures Valid(repo) ==> Valid(r)
  {
    RecordFields(repo.directory, imagePath);
    Store(repo, Key(repo.directory, imagePath), Record(repo.directory, imagePath))
  }

  /** `self.images[k] = img` */
  function Store(repo: Repository, k: string, img: Image): (r: Repository)
    ensures r.directory == repo.directory
    ensures Get(r.images, k) == Some(img)
    ensures forall k' :: k' != k ==> Get(r.images, k') == Get(repo.images, k')
    ensures k in Keys(repo.images) ==> Keys(r.images) == Keys(repo.images)
    ensures k !in Keys(repo.images) ==> Keys(r.images) == Keys(repo.images) + [k]
    ensures SoundEntry(k, img) && Valid(repo) ==> Valid(r)
  {
    assert SoundEntry(k, img) && Valid(repo) ==> Valid(repo.(images := Put(repo.images, k, img))) by {
      if SoundEntry(k, img) {
        PutKeepsValid(repo, k, img);
      }
    }
    repo.(images := Put(repo.images, k, img))
  }

  /** Storing under `k` adds at most the key `k`. */
  lemma StoreKeys(repo: Repository, k: string, img: Image)
    ensures forall k' :: k' in Keys(Store(repo, k, img).images) <==> k' in Keys(repo.images) || k' == k
  {
  }

  /** The fields of the stored record, and that it is a sound entry under its key. */
  lemma RecordFields(directory: Path, imagePath: Path)
    ensures
      var img := Record(directory, imagePath);
      && img.relpath == Key(directory, imagePath)
      && img.abspath == Render(imagePath)
      && img.tags == []
      && img.name + SplitExt(Basename(imagePath)).1 == Basename(imagePath)
      && img.category == Category(imagePath)
      && SoundEntry(Key(directory, imagePath), img)
  {
    var e := SplitExt(Basename(imagePath));
    assert e.0 + e.1 == Basename(imagePath);
    var c := Category(imagePath);
    assert c == ["grid"] || c == ["image"];
  }

  /** Storing a sound entry keeps the index valid. */
  lemma PutKeepsValid(repo: Repository, k: string, img: Image)
    requires SoundEntry(k, img)
    ensures Valid(repo) ==> Valid(repo.(images := Put(repo.images, k, img)))
  {
    var d := Put(repo.images, k, img);
    if Valid(repo) {
      forall k' | Get(d, k').Some?
        ensures SoundEntry(k', Get(d, k').value)
      {
        if k' != k {
          assert Get(d, k') == Get(repo.images, k');
        }
      }
    }
  }

  /** `remove_image(p)`: never fails; the key is absent afterwards, nothing
      else changes and the remaining keys keep their order. */
  function RemoveImage(repo: Repository, imagePath: Path): (r: Repository)
    ensures r.directory == repo.directory
    ensures Get(r.images, Key(repo.directory, imagePath)).None?
    ensures forall k :: k != Key(repo.directory, imagePath) ==> Get(r.images, k) == Get(repo.images, k)
    ensures Keys(r.images) == Erase(Keys(repo.images), Key(repo.directory, imagePath))
    ensures Valid(repo) ==> Valid(r)
  {
    Unstore(repo, Key(repo.directory, imagePath))
  }

  /** `if k in self.images: del self.images[k]` */
  function Unstore(repo: Repository, k: string): (r: Repository)
    ensures r.directory == repo.directory
    ensures Get(r.images, k).None?
    ensures forall k' :: k' != k ==> Get(r.images, k') == Get(repo.images, k')
    ensures Keys(r.images) == Erase(Keys(repo.images), k)
    ensures Valid(repo) ==> Valid(r)
  {
    var r := repo.(images := Remove(repo.images, k));
    assert Valid(repo) ==> Valid(r) by {
      if Valid(repo) {
        forall k' | Get(r.images, k').Some?
          ensures SoundEntry(k', Get(r.images, k').value)
        {
          assert Get(r.images, k') == Get(repo.images, k');
        }
      }
    }
    r
  }

  /** Deleting a key and storing it again gives the same mapping as storing it
      in place, with the key moved last. */
  lemma StoreAfterUnstore(repo: Repository, k: string, img: Image)
    ensures forall k' :: Get(Store(Unstore(repo, k), k, img).images, k') == Get(Store(repo, k, img).images, k')
    ensures Keys(Store(Unstore(repo, k), k, img).images) == Erase(Keys(repo.images), k) + [k]
  {
    var removed := Unstore(repo, k);
    assert k !in Keys(removed.images);
  }

  /** `update_image(p)`, which is `remove_image(p)` then `add_image(p)`: the
      same key-to-record mapping as `add_image(p)`, with the key moved last. */
  function UpdateImage(repo: Repository, imagePath: Path): (r: Repository)
    ensures r.directory == repo.directory
    ensures forall k :: Get(r.images, k) == Get(AddImage(repo, imagePath).images, k)
    ensures Keys(r.images) == Erase(Keys(repo.images), Key(repo.directory, imagePath)) + [Key(repo.directory, imagePath)]
    ensures Valid(repo) ==> Valid(r)
  {
    RecordFields(repo.directory, imagePath);
    StoreAfterUnstore(repo, Key(repo.directory, imagePath), Record(repo.directory, imagePath));
    AddImage(RemoveImage(repo, imagePath), imagePath)
  }

  /** `list(category)`: every record in iteration order when `category` is
      `None` or empty; otherwise exactly the records whose category list
      contains it, still in iteration order. */
  function List(repo: Repository, category: Option<string>): (r: seq<Image>)
    ensures category.None? || category.value == "" ==> r == Values(repo.images)
    ensures category.Some? && category.value != "" ==>
      && (forall img :: img in r <==> img in Values(repo.images) && category.value in img.category)
      && (forall img :: multiset(r)[img] == if category.value in img.category then multiset(Values(repo.images))[img] else 0)
      && IsSubseq(r, Values(repo.images))
  {
    if category.None? || category.value == "" then Values(repo.images)
    else Filter(Values(repo.images), (img: Image) => category.value in img.category)
  }

  /** `categories()`: a fixed answer, whatever the index holds. It offers
      every category classification can produce, and nothing else. */
  function Categories(repo: Repository): (r: set<string>)
    ensures forall p: Path, c :: c in Category(p) ==> c in r
    ensures forall c :: c in r ==> exists p: Path :: c in Category(p)
  {
    assert "grid" in Category(["grid"]) by {
      assert OccursAt("grid", "grid", 0);
    }
    assert "image" in Category([]);
    {"image", "grid"}
  }

  /** Adding the same path twice leaves the index as adding it once. */
  lemma AddIdempotent(repo: Repository, imagePath: Path)
    ensures AddImage(AddImage(repo, imagePath), imagePath) == AddImage(repo, imagePath)
  {
    PutIdempotent(repo.images, Key(repo.directory, imagePath), Record(repo.directory, imagePath));
  }

  /** Because both derive the key the same way, removing a path right after
      adding it leaves it absent, and restores the index when the key was new. */
  lemma AddThenRemove(repo: Repository, imagePath: Path)
    ensures Get(RemoveImage(AddImage(repo, imagePath), imagePath).images, Key(repo.directory, imagePath)).None?
    ensures Key(repo.directory, imagePath) !in Keys(repo.images) ==>
      RemoveImage(AddImage(repo, imagePath), imagePath) == repo
  {
    var k := Key(repo.directory, imagePath);
    if k !in Keys(repo.images) {
      PutRemove(repo.images, k, Record(repo.directory, imagePath));
    }
  }

  /** The default category of the library page, `'images'`, is not one that
      classification produces, so it selects nothing from any index the
      operations can build. */
  lemma DefaultCategoryMatchesNothing(repo: Repository)
    requires Valid(repo)
    ensures List(repo, Some("images")) == []
  {
    var vs := Values(repo.images);
    forall i | 0 <= i < |vs|
      ensures "images" !in vs[i].category
    {
      assert (repo.images[i].0, vs[i]) in repo.images;
      assert Get(repo.images, repo.images[i].0) == Some(vs[i]);
    }
    FilterNone(vs, (img: Image) => "images" in img.category);
  }

  /** Every record of a valid index is listed under one of `categories()`. */
  lemma CategoriesCoverRecords(repo: Repository, img: Image)
    requires Valid(repo) && img in List(repo, None)
    ensures exists c :: c in Categories(repo) && img in List(repo, Some(c))
  {
    var i :| 0 <= i < |repo.images| && repo.images[i].1 == img;
    assert (repo.images[i].0, img) in repo.images;
    assert Get(repo.images, repo.images[i].0) == Some(img);
    var c := img.category[0];
    assert c in Category(if c == "grid" then ["grid"] else []) by {
      assert OccursAt("grid", "grid", 0);
    }
    assert img in List(repo, Some(c));
  }

  /** A file directly inside the watched directory is keyed `./name`. */
  lemma KeyTopLevel(directory: Path, name: string)
    requires Normal(directory) && Normal([name])
    ensures Key(directory, directory + [name]) == "./" + name
  {
    assert Dirname(directory + [name]) == directory;
    CommonPrefixOfAncestor(directory, directory);
    assert directory[|directory|..] == [];
    assert [name][0] == name;
    assert name != [] && '/' !in name;
  }

  /** A file in a sub-directory is keyed by its segments below the watched
      directory, joined with `/`. */
  lemma KeyNested(directory: Path, sub: Path, name: string)
    requires Normal(directory) && Normal(sub + [name]) && sub != []
    ensures Key(directory, directory + sub + [name]) == Join(sub + [name], '/')
  {
    var p := directory + sub + [name];
    assert forall i :: 0 <= i < |sub| ==> sub[i] == (sub + [name])[i];
    assert (sub + [name])[|sub|] == name;
    assert Dirname(p) == directory + sub;
    CommonPrefixOfAncestor(directory + sub, directory);
    assert (directory + sub)[|directory|..] == sub;
    var rel := seq(0, _ => "..") + sub;
    assert rel == sub;
    assert RelPath(directory + sub, directory) == Join(sub, '/');
    JoinAppend(sub, name, '/');
    JoinEndsWith(sub);
    assert (sub + [name])[|sub|] == name;
    assert name != [] && '/' !in name;
  }

  /** The joined segments end with the last segment's last character. */
  lemma {:induction false} JoinEndsWith(parts: seq<string>)
    requires Normal(parts) && parts != []
    ensures Join(parts, '/') != [] && Join(parts, '/')[|Join(parts, '/')| - 1] == parts[|parts| - 1][|parts[|parts| - 1]| - 1]
  {
    var init := parts[..|parts| - 1];
    assert parts == init + [parts[|parts| - 1]];
    JoinAppend(init, parts[|parts| - 1], '/');
  }

  /** The segments a key is the `/`-join of: `.` and the name for a top-level
      file, the segments below the watched directory otherwise. */
  function KeySegments(below: Path): Path {
    if |below| == 1 then ["."] + below else below
  }

  lemma KeyAsJoin(directory: Path, below: Path)
    requires Normal(directory) && Normal(below) && below != []
    ensures Key(directory, directory + below) == Join(KeySegments(below), '/')
  {
    var name := below[|below| - 1];
    var sub := below[..|below| - 1];
    assert below == sub + [name];
    if sub == [] {
      KeyAsJoinTop(directory, name);
    } else {
      assert directory + below == directory + sub + [name];
      KeyNested(directory, sub, name);
    }
  }

  lemma KeyAsJoinTop(directory: Path, name: string)
    requires Normal(directory) && Normal([name])
    ensures Key(directory, directory + [name]) == Join(KeySegments([name]), '/')
  {
    KeyTopLevel(directory, name);
    assert KeySegments([name]) == [".", name];
    assert KeySegments([name])[1..] == [name];
  }


  /** Different files under the watched directory never share a key, so the
      index holds one entry per file. */
  lemma KeyInjective(directory: Path, a: Path, b: Path)
    requires Normal(directory) && Normal(a) && Normal(b) && a != [] && b != []
    requires Key(directory, directory + a) == Key(directory, directory + b)
    ensures a == b
  {
    KeyAsJoin(directory, a);
    KeyAsJoin(directory, b);
    KeySegmentsNoSeparator(a);
    KeySegmentsNoSeparator(b);
    var ka := KeySegments(a);
    var kb := KeySegments(b);
    SplitJoin(ka, '/');
    SplitJoin(kb, '/');
    assert ka == kb;
    KeySegmentsInjective(a, b);
  }

  lemma KeySegmentsNoSeparator(below: Path)
    requires Normal(below) && below != []
    ensures |KeySegments(below)| >= 1
    ensures forall i :: 0 <= i < |KeySegments(below)| ==> '/' !in KeySegments(below)[i]
  {
  }

  lemma KeySegmentsInjective(a: Path, b: Path)
    requires Normal(a) && Normal(b) && a != [] && b != []
    requires KeySegments(a) == KeySegments(b)
    ensures a == b
  {
    var ka := KeySegments(a);
    assert ka[0] == "." <==> |a| == 1;
    assert ka[0] == "." <==> |b| == 1;
    if |a| == 1 {
      assert a == [ka[1]] && b == [ka[1]];
    }
  }

  /** The watchdog event kinds. The handler overrides only `on_created`,
      `on_deleted` and `on_modified`; the base class ignores the others. */
  datatype EventKind = Created | Deleted | Modified | Moved | Closed

  datatype Event = Event(kind: EventKind, srcPath: Path, isDirectory: bool)

  /** `ImageChangeHandler`: creation adds and modification updates, both only
      for a file `imghdr` recognises; deletion removes without asking `imghdr`.
      A created key goes last unless already present, a modified key moves
      last, and a deletion keeps the order of the remaining keys. */
  function Dispatch(repo: Repository, ev: Event, fs: FileSystem): (r: Repository)
    ensures r.directory == repo.directory
    ensures r != repo ==> !ev.isDirectory && ev.kind in {Created, Deleted, Modified}
    ensures r != repo && ev.kind != Deleted ==> IsImage(fs.what(Render(ev.srcPath)))
    ensures forall k :: k != Key(repo.directory, ev.srcPath) ==> Get(r.images, k) == Get(repo.images, k)
    ensures !ev.isDirectory && ev.kind == Deleted ==> Get(r.images, Key(repo.directory, ev.srcPath)).None?
    ensures !ev.isDirectory && ev.kind in {Created, Modified} && IsImage(fs.what(Render(ev.srcPath))) ==>
      Get(r.images, Key(repo.directory, ev.srcPath)) == Some(Record(repo.directory, ev.srcPath))
    ensures
      var k := Key(repo.directory, ev.srcPath);
      !ev.isDirectory && ev.kind == Created && IsImage(fs.what(Render(ev.srcPath))) ==>
        Keys(r.images) == if k in Keys(repo.images) then Keys(repo.images) else Keys(repo.images) + [k]
    ensures
      var k := Key(repo.directory, ev.srcPath);
      !ev.isDirectory && ev.kind == Modified && IsImage(fs.what(Render(ev.srcPath))) ==>
        Keys(r.images) == Erase(Keys(repo.images), k) + [k]
    ensures !ev.isDirectory && ev.kind == Deleted ==>
      Keys(r.images) == Erase(Keys(repo.images), Key(repo.directory, ev.srcPath))
    ensures Valid(repo) ==> Valid(r)
  {
    var image := IsImage(fs.what(Render(ev.srcPath)));
    match ev.kind
    case Created => if !ev.isDirectory && image then AddImage(repo, ev.srcPath) else repo
    case Deleted => if !ev.isDirectory then RemoveImage(repo, ev.srcPath) else repo
    case Modified => if !ev.isDirectory && image then UpdateImage(repo, ev.srcPath) else repo
    case Moved => repo
    case Closed => repo
  }

  /** A deletion is applied whatever `imghdr` would say about the path. */
  lemma DeleteIgnoresDetection(repo: Repository, path: Path, fs1: FileSystem, fs2: FileSystem)
    ensures Dispatch(repo, Event(Deleted, path, false), fs1) == Dispatch(repo, Event(Deleted, path, false), fs2)
  {
  }

  /** A file the walk may index: a regular file that `imghdr` recognises. */
  predicate Accepted(fs: FileSystem, p: Path) {
    fs.isFile(Render(p)) && IsImage(fs.what(Render(p)))
  }

  /** Some accepted file of the walk is keyed `k`. */
  predicate Walked(directory: Path, files: seq<Path>, fs: FileSystem, k: string) {
    exists i :: 0 <= i < |files| && Accepted(fs, files[i]) && Key(directory, files[i]) == k
  }

  lemma WalkedCons(directory: Path, files: seq<Path>, fs: FileSystem, k: string)
    requires files != []
    ensures Walked(directory, files, fs, k) <==>
      (Accepted(fs, files[0]) && Key(directory, files[0]) == k) || Walked(directory, files[1..], fs, k)
  {
    if Walked(directory, files, fs, k) {
      var i :| 0 <= i < |files| && Accepted(fs, files[i]) && Key(directory, files[i]) == k;
      if i > 0 {
        assert files[1..][i - 1] == files[i];
      }
    }
    if Walked(directory, files[1..], fs, k) {
      var i :| 0 <= i < |files[1..]| && Accepted(fs, files[1..][i]) && Key(directory, files[1..][i]) == k;
      assert files[i + 1] == files[1..][i];
    }
  }

  /** `_load_images`: `add_image` for every accepted file of the walk, in walk
      order. Afterwards the index holds a key exactly when it held it before
      or some accepted file has it: it never holds a path it was not given. */
  function LoadImages(repo: Repository, files: seq<Path>, fs: FileSystem): (r: Repository)
    ensures r.directory == repo.directory
    ensures forall k :: k in Keys(r.images) <==> k in Keys(repo.images) || Walked(repo.directory, files, fs, k)
    ensures Valid(repo) ==> Valid(r)
    decreases |files|
  {
    if files == [] then repo
    else
      var next := LoadOne(repo, files[0], fs);
      var r := LoadImages(next, files[1..], fs);
      forall k
        ensures k in Keys(r.images) <==> k in Keys(repo.images) || Walked(repo.directory, files, fs, k)
      {
        WalkedCons(repo.directory, files, fs, k);
      }
      r
  }

  /** One step of the walk: `add_image` when the file is accepted. */
  function LoadOne(repo: Repository, p: Path, fs: FileSystem): (r: Repository)
    ensures r.directory == repo.directory
    ensures forall k :: k in Keys(r.images) <==> k in Keys(repo.images) || (Accepted(fs, p) && Key(repo.directory, p) == k)
    ensures Valid(repo) ==> Valid(r)
  {
    if Accepted(fs, p) then
      StoreKeys(repo, Key(repo.directory, p), Record(repo.directory, p));
      AddImage(repo, p)
    else
      repo
  }

  /** `ImageRepository(directory)`: an empty dict filled by the walk. */
  function Open(directory: Path, files: seq<Path>, fs: FileSystem): (r: Repository)
    ensures Valid(r)
  {
    LoadImages(Repository(directory, []), files, fs)
  }
}

=== FILE: library.dfy ===
/** The selection logic of the `/library` page in `main.py`: the category
    filter with its default, the previous/next relpaths around the selected
    image, and the `tEXt` metadata of a selected PNG. Rendering the template
    and the `os.stat` timestamps are not modelled. */
module Library {
  import opened Wrappers
  import opened Seqs
  import opened OrderedDict
  import opened Files
  import opened PngText
  import opened Navigation
  import opened ImageRepository

  /** `request.args.get('category', 'images')` */
  function SelectedCategory(arg: Option<string>): string {
    arg.GetOr("images")
  }

  /** `[image.relpath for image in images]` */
  function Relpaths(images: seq<Image>): (r: seq<string>)
    ensures |r| == |images| && forall i :: 0 <= i < |images| ==> r[i] == images[i].relpath
  {
    seq(|images|, i requires 0 <= i < |images| => images[i].relpath)
  }

  datatype Selection = Selection(image: Option<Image>, prev: Option<string>, next: Option<string>)

  /** `s` selects the image at position `i`, the first whose relpath is `relpath`, with
      the relpaths of its neighbours as previous and next. */
  predicate SelectedAt(images: seq<Image>, relpath: string, i: int, s: Selection) {
    && 0 <= i < |images|
    && images[i].relpath == relpath
    && (forall j :: 0 <= j < i ==> images[j].relpath != relpath)
    && s.image == Some(images[i])
    && s.prev == (if i > 0 then Some(images[i - 1].relpath) else None)
    && s.next == (if i < |images| - 1 then Some(images[i + 1].relpath) else None)
  }

  /** The selection block of `library()`: with a non-empty relpath that is listed, the image at its
      first position and the relpaths of its neighbours; otherwise nothing. */
  function Select(images: seq<Image>, arg: Option<string>): (r: Selection)
    ensures r.image.Some? <==> arg.Some? && arg.value != "" && arg.value in Relpaths(images)
    ensures r.image.None? ==> r.prev.None? && r.next.None?
    ensures r.image.Some? ==> exists i :: SelectedAt(images, arg.value, i, r)
  {
    if arg.None? || arg.value == "" then Selection(None, None, None)
    else
      var nav := Adjacent(Relpaths(images), arg.value);
      match nav.index
      case None => Selection(None, None, None)
      case Some(i) =>
        assert Relpaths(images)[i] == images[i].relpath;
        var r := Selection(Some(images[i]), nav.prev, nav.next);
        assert nav.next.Some? ==> nav.next.value == images[i + 1].relpath;
        assert nav.prev.Some? ==> nav.prev.value == images[i - 1].relpath;
        forall j | 0 <= j < i
          ensures images[j].relpath != arg.value
        {
          assert Relpaths(images)[..i][j] == images[j].relpath;
        }
        assert SelectedAt(images, arg.value, i, r);
        r
  }

  /** What the page hands to its template. */
  datatype Page = Page(
    images: seq<Image>,
    selected: Option<Image>,
    nextRelpath: Option<string>,
    prevRelpath: Option<string>,
    pngChunks: Option<Dict<Bytes, Bytes>>,
    categories: set<string>,
    selectedCategory: string)

  /** `library()`: an error result is the exception unpacking or decoding a `tEXt` chunk raises. */
  function View(repo: Repository, imageArg: Option<string>, categoryArg: Option<string>, fs: FileSystem): (r: Result<Page, TextError>)
    ensures
      var s := Select(List(repo, Some(SelectedCategory(categoryArg))), imageArg);
      r.Failure? <==>
        s.image.Some? && fs.what(s.image.value.abspath) == Some(Png) && TextChunks(fs.chunks(s.image.value.abspath)).Failure?
    ensures
      var s := Select(List(repo, Some(SelectedCategory(categoryArg))), imageArg);
      r.Success? ==> (r.value.selected, r.value.prevRelpath, r.value.nextRelpath) == (s.image, s.prev, s.next)
    ensures r.Success? ==> r.value.images == List(repo, Some(SelectedCategory(categoryArg)))
    ensures
      var s := Select(List(repo, Some(SelectedCategory(categoryArg))), imageArg);
      r.Success? ==> r.value.pngChunks == PngMetadata(fs, if s.image.Some? then Some(s.image.value.abspath) else None).value
    ensures r.Success? ==> r.value.categories == Categories(repo) && r.value.selectedCategory == SelectedCategory(categoryArg)
    ensures r.Success? ==> r.value.pngChunks.Some? ==> r.value.selected.Some?
    ensures r.Success? ==> r.value.selected.Some? ==> r.value.selected.value in r.value.images
  {
    var category := SelectedCategory(categoryArg);
    var images := List(repo, Some(category));
    var selection := Select(images, imageArg);
    // `library()`'s metadata block without `os.stat`: the selected image's file, by its absolute path.
    var chunks :- PngMetadata(fs, if selection.image.Some? then Some(selection.image.value.abspath) else None);
    Success(Page(images, selection.image, selection.next, selection.prev, chunks, Categories(repo), category))
  }

  /** Without a `category` argument the page lists nothing, so nothing can be
      selected and no metadata is read. */
  lemma DefaultPageIsEmpty(repo: Repository, imageArg: Option<string>, fs: FileSystem)
    requires Valid(repo)
    ensures View(repo, imageArg, None, fs) == Success(Page([], None, None, None, None, {"image", "grid"}, "images"))
  {
    DefaultCategoryMatchesNothing(repo);
  }

  /** Relpaths are pairwise different. */
  predicate DistinctRelpaths(images: seq<Image>) {
    forall i, j :: 0 <= i < j < |images| ==> images[i].relpath != images[j].relpath
  }

  /** Every listing of a valid index has pairwise different relpaths. */
  lemma ListingHasDistinctRelpaths(repo: Repository, category: Option<string>)
    requires Valid(repo)
    ensures DistinctRelpaths(List(repo, category))
  {
    var vs := Values(repo.images);
    forall i | 0 <= i < |vs|
      ensures vs[i].relpath == repo.images[i].0
    {
      assert (repo.images[i].0, vs[i]) in repo.images;
      assert Get(repo.images, repo.images[i].0) == Some(vs[i]);
    }
    if category.Some? && category.value != "" {
      SubseqKeepsDistinctRelpaths(List(repo, category), vs);
    }
  }

  lemma {:induction false} SubseqKeepsDistinctRelpaths(a: seq<Image>, b: seq<Image>)
    requires IsSubseq(a, b) && DistinctRelpaths(b)
    ensures DistinctRelpaths(a)
    decreases |b|
  {
    if a != [] {
      assert forall j :: 0 <= j < |b| - 1 ==> b[1..][j] == b[j + 1];
      if IsSubseq(a, b[1..]) {
        SubseqKeepsDistinctRelpaths(a, b[1..]);
      } else {
        SubseqKeepsDistinctRelpaths(a[1..], b[1..]);
        forall j | 1 <= j < |a|
          ensures a[0].relpath != a[j].relpath
        {
          assert a[j] == a[1..][j - 1];
          SubseqMember(a[1..], b[1..], j - 1);
        }
      }
    }
  }

  lemma {:induction false} SubseqMember<T>(a: seq<T>, b: seq<T>, i: nat)
    requires IsSubseq(a, b) && i < |a|
    ensures exists j :: 0 <= j < |b| && b[j] == a[i]
    decreases |b|
  {
    if IsSubseq(a, b[1..]) {
      SubseqMember(a, b[1..], i);
      var j :| 0 <= j < |b[1..]| && b[1..][j] == a[i];
      assert b[j + 1] == a[i];
    } else if i == 0 {
      assert b[0] == a[0];
    } else {
      SubseqMember(a[1..], b[1..], i - 1);
      var j :| 0 <= j < |b[1..]| && b[1..][j] == a[1..][i - 1];
      assert b[j + 1] == a[i];
    }
  }

  /** Selecting the listed image at position `i` of a valid index's listing
      yields exactly its neighbours' relpaths: none before the first image and
      none after the last. */
  lemma SelectNeighbours(repo: Repository, category: Option<string>, i: nat)
    requires Valid(repo)
    requires i < |List(repo, category)| && List(repo, category)[i].relpath != ""
    ensures
      var images := List(repo, category);
      Select(images, Some(images[i].relpath)) ==
        Selection(
          Some(images[i]),
          if i > 0 then Some(images[i - 1].relpath) else None,
          if i < |images| - 1 then Some(images[i + 1].relpath) else None)
  {
    var images := List(repo, category);
    ListingHasDistinctRelpaths(repo, category);
    var rs := Relpaths(images);
    assert Distinct(rs);
    AdjacentAt(rs, i);
  }
}

=== FILE: navigation.dfy ===
/** The previous/next computation both pages perform on the listed images:
    `i = xs.index(x)`, then `xs[i + 1]` unless `i` is last and `xs[i - 1]`
    unless `i` is first. */
module Navigation {
  import opened Wrappers
  import opened Seqs

  datatype Neighbours<T> = Neighbours(index: Option<nat>, prev: Option<T>, next: Option<T>)

  function Adjacent<T(==)>(xs: seq<T>, x: T): (r: Neighbours<T>)
    ensures r.index.None? <==> x !in xs
    ensures r.index.None? ==> r.prev.None? && r.next.None?
    ensures r.index.Some? ==>
      var i := r.index.value;
      && i < |xs| && xs[i] == x && x !in xs[..i]
      && (r.next.Some? <==> i < |xs| - 1)
      && (r.next.Some? ==> r.next.value == xs[i + 1])
      && (r.prev.Some? <==> i > 0)
      && (r.prev.Some? ==> r.prev.value == xs[i - 1])
  {
    match IndexOf(xs, x)
    case None => Neighbours(None, None, None)
    case Some(i) =>
      Neighbours(
        Some(i),
        if i > 0 then Some(xs[i - 1]) else None,
        if i < |xs| - 1 then Some(xs[i + 1]) else None)
  }

  /** In a list without repetitions, the neighbours of the element at
      position `i` are the elements at `i - 1` and `i + 1`. */
  lemma AdjacentAt<T>(xs: seq<T>, i: nat)
    requires Distinct(xs) && i < |xs|
    ensures Adjacent(xs, xs[i]).index == Some(i)
    ensures Adjacent(xs, xs[i]).prev == if i > 0 then Some(xs[i - 1]) else None
    ensures Adjacent(xs, xs[i]).next == if i < |xs| - 1 then Some(xs[i + 1]) else None
  {
    IndexOfDistinct(xs, i);
  }

  /** The first element has no previous one and the last has no next one. */
  lemma Boundaries<T>(xs: seq<T>)
    requires Distinct(xs) && xs != []
    ensures Adjacent(xs, xs[0]).prev.None?
    ensures Adjacent(xs, xs[|xs| - 1]).next.None?
  {
    AdjacentAt(xs, 0);
    AdjacentAt(xs, |xs| - 1);
  }

  /** Stepping to the next element and then back returns to the start, and
      the other way round. */
  lemma NextPrevInverse<T>(xs: seq<T>, x: T)
    requires Distinct(xs)
    ensures Adjacent(xs, x).next.Some? ==> Adjacent(xs, Adjacent(xs, x).next.value).prev == Some(x)
    ensures Adjacent(xs, x).prev.Some? ==> Adjacent(xs, Adjacent(xs, x).prev.value).next == Some(x)
  {
    var r := Adjacent(xs, x);
    if r.index.Some? {
      var i := r.index.value;
      if i < |xs| - 1 {
        AdjacentAt(xs, i + 1);
      }
      if i > 0 {
        AdjacentAt(xs, i - 1);
      }
    }
  }
}

=== FILE: ordered_dict.dfy ===
/** Python's `dict`: a key-to-value mapping whose iteration order is the
    order in which keys were first inserted. Assigning to an existing key
    keeps its place; deleting a key and inserting it again moves it to the end. */
module OrderedDict {
  import opened Wrappers
  import opened Seqs

  /** No key occurs in two entries. */
  predicate UniqueKeys<K(==,!new), V(!new)>(items: seq<(K, V)>) {
    forall i, j :: 0 <= i < j < |items| ==> items[i].0 != items[j].0
  }

  /** The entries of a dict in iteration order. */
  type Dict<K(==,!new), V(!new)> = items: seq<(K, V)> | UniqueKeys(items) witness []

  /** `list(d.keys())` */
  function Keys<K(!new), V(!new)>(d: seq<(K, V)>): (ks: seq<K>)
    ensures |ks| == |d| && forall i :: 0 <= i < |d| ==> ks[i] == d[i].0
  {
    seq(|d|, i requires 0 <= i < |d| => d[i].0)
  }

  /** `list(d.values())` */
  function Values<K(!new), V(!new)>(d: seq<(K, V)>): (vs: seq<V>)
    ensures |vs| == |d| && forall i :: 0 <= i < |d| ==> vs[i] == d[i].1
  {
    seq(|d|, i requires 0 <= i < |d| => d[i].1)
  }

  lemma KeysDistinct<K(!new), V(!new)>(d: Dict<K, V>)
    ensures Distinct(Keys(d))
  {
  }

  /** The position of key `k`, if present. */
  function Find<K(==,!new), V(!new)>(d: Dict<K, V>, k: K): (r: Option<nat>)
    ensures r.None? <==> k !in Keys(d)
    ensures r.Some? ==> r.value < |d| && d[r.value].0 == k
  {
    IndexOf(Keys(d), k)
  }

  /** `d.get(k)` */
  function Get<K(==,!new), V(!new)>(d: Dict<K, V>, k: K): (r: Option<V>)
    ensures r.None? <==> k !in Keys(d)
    ensures forall v :: r == Some(v) <==> (k, v) in d
  {
    match Find(d, k)
    case None => None
    case Some(i) =>
      forall v | (k, v) in d
        ensures v == d[i].1
      {
        var j :| 0 <= j < |d| && d[j] == (k, v);
        assert d[j].0 == d[i].0;
      }
      Some(d[i].1)
  }

  /** Two dicts with the same keys in the same order and the same value under
      every key are the same dict. */
  lemma Extensionality<K(!new), V(!new)>(a: Dict<K, V>, b: Dict<K, V>)
    requires Keys(a) == Keys(b)
    requires forall k :: Get(a, k) == Get(b, k)
    ensures a == b
  {
    assert |a| == |Keys(a)| == |b|;
    forall i | 0 <= i < |a|
      ensures a[i] == b[i]
    {
      var k := a[i].0;
      assert k == Keys(a)[i] == Keys(b)[i] == b[i].0;
      assert a[i] in a && b[i] in b;
      assert Get(a, k) == Some(a[i].1);
      assert Get(b, k) == Some(b[i].1);
    }
  }

  /** `d[k] = v`: the key now maps to `v`, every other key keeps its value, an
      existing key keeps its place and a new key goes last. */
  function Put<K(==,!new), V(!new)>(d: Dict<K, V>, k: K, v: V): (r: Dict<K, V>)
    ensures Get(r, k) == Some(v)
    ensures forall k' :: k' != k ==> Get(r, k') == Get(d, k')
    ensures k in Keys(d) ==> Keys(r) == Keys(d)
    ensures k !in Keys(d) ==> Keys(r) == Keys(d) + [k]
  {
    match Find(d, k)
    case Some(i) =>
      var r := d[i := (k, v)];
      assert r[i] == (k, v);
      forall k', v' | k' != k
        ensures (k', v') in r <==> (k', v') in d
      {
        if (k', v') in d {
          var j :| 0 <= j < |d| && d[j] == (k', v');
          assert r[j] == d[j];
        }
      }
      assert Keys(r) == Keys(d);
      r
    case None =>
      var r := d + [(k, v)];
      assert r[|d|] == (k, v);
      assert Keys(r) == Keys(d) + [k];
      r
  }

  /** `if k in d: del d[k]`: the key is gone, nothing else changes, and the
      remaining keys keep their relative order. */
  function Remove<K(==,!new), V(!new)>(d: Dict<K, V>, k: K): (r: Dict<K, V>)
    ensures Get(r, k) == None
    ensures forall k' :: k' != k ==> Get(r, k') == Get(d, k')
    ensures Keys(r) == Erase(Keys(d), k)
  {
    match Find(d, k)
    case None =>
      EraseAbsent(Keys(d), k);
      d
    case Some(i) =>
      CutAt(d, i);
      KeysDistinct(d);
      EraseAt(Keys(d), i);
      d[..i] + d[i + 1..]
  }

  /** Cutting out entry `i` keeps keys unique and keeps exactly the other entries. */
  lemma CutAt<K(!new), V(!new)>(d: Dict<K, V>, i: nat)
    requires i < |d|
    ensures UniqueKeys(d[..i] + d[i + 1..])
    ensures forall e: (K, V) :: e.0 != d[i].0 ==> (e in d[..i] + d[i + 1..] <==> e in d)
    ensures forall e: (K, V) :: e.0 == d[i].0 ==> e !in d[..i] + d[i + 1..]
    ensures Keys(d[..i] + d[i + 1..]) == Keys(d)[..i] + Keys(d)[i + 1..]
  {
    var r := d[..i] + d[i + 1..];
    assert |r| == |d| - 1;
    assert forall a :: 0 <= a < |r| ==> r[a] == if a < i then d[a] else d[a + 1];
    assert d == d[..i] + [d[i]] + d[i + 1..];
  }

  /** Assigning the same value twice is assigning it once. */
  lemma PutIdempotent<K(!new), V(!new)>(d: Dict<K, V>, k: K, v: V)
    ensures Put(Put(d, k, v), k, v) == Put(d, k, v)
  {
    var once := Put(d, k, v);
    var twice := Put(once, k, v);
    forall k' ensures Get(twice, k') == Get(once, k') {
    }
    Extensionality(twice, once);
  }

  /** Deleting a key that was just inserted restores the dict it was inserted into. */
  lemma PutRemove<K(!new), V(!new)>(d: Dict<K, V>, k: K, v: V)
    requires k !in Keys(d)
    ensures Remove(Put(d, k, v), k) == d
  {
    var r := Remove(Put(d, k, v), k);
    EraseAbsent(Keys(d), k);
    EraseAppendLast(Keys(d), k);
    forall k' ensures Get(r, k') == Get(d, k') {
    }
    Extensionality(r, d);
  }

  lemma {:induction false} EraseAppendLast<T(!new)>(xs: seq<T>, x: T)
    ensures Erase(xs + [x], x) == Erase(xs, x)
  {
    if xs == [] {
      assert Erase([x], x) == Erase([x][1..], x);
    } else {
      assert (xs + [x])[1..] == xs[1..] + [x];
      EraseAppendLast(xs[1..], x);
    }
  }
}

=== FILE: paths.dfy ===
/** The parts of Python's `posixpath` the code relies on. An absolute path is
    kept as its sequence of segments: `/srv/img/a.png` is `["srv", "img", "a.png"]`. */
module Paths {
  import opened Wrappers
  import opened Seqs

  type Path = seq<string>

  /** What `os.path.abspath` produces: no empty, `.` or `..` segment and no
      segment holding the separator. */
  predicate Normal(p: Path) {
    forall i :: 0 <= i < |p| ==> p[i] != "" && p[i] != "." && p[i] != ".." && '/' !in p[i]
  }

  /** The absolute path as the string the code passes around. */
  function Render(p: Path): string {
    "/" + Join(p, '/')
  }

  /** `os.path.dirname` */
  function Dirname(p: Path): Path {
    if p == [] then [] else p[..|p| - 1]
  }

  /** `os.path.basename` */
  function Basename(p: Path): string {
    if p == [] then "" else p[|p| - 1]
  }

  /** The longest common leading run of segments, as `os.path.commonpath`
      and `os.path.relpath` compute it. */
  function CommonPrefix(a: Path, b: Path): (r: Path)
    ensures r <= a && r <= b
    ensures |r| < |a| && |r| < |b| ==> a[|r|] != b[|r|]
  {
    if a == [] || b == [] || a[0] != b[0] then []
    else
      var rest := CommonPrefix(a[1..], b[1..]);
      assert a == [a[0]] + a[1..] && b == [b[0]] + b[1..];
      [a[0]] + rest
  }

  /** The common prefix with `b` is all of `a` exactly when `a` is a prefix of `b`. */
  lemma CommonPrefixWhole(a: Path, b: Path)
    ensures CommonPrefix(a, b) == a <==> a <= b
  {
  }

  /** A path's common prefix with one of its ancestors is that ancestor. */
  lemma CommonPrefixOfAncestor(a: Path, b: Path)
    requires b <= a
    ensures CommonPrefix(a, b) == b
  {
  }

  /** `os.path.relpath(path, start)` for normalised absolute paths: climb out
      of `start` with `..` to the common prefix, then descend into `path`. */
  function RelPath(path: Path, start: Path): (r: string)
    ensures Normal(path) ==> r != [] && (r == "." <==> path == start)
    ensures start <= path && path != start ==> r == Join(path[|start|..], '/')
    ensures path <= start && path != start ==> r == Join(seq(|start| - |path|, _ => ".."), '/')
  {
    var i := |CommonPrefix(path, start)|;
    var rel := seq(|start| - i, _ => "..") + path[i..];
    assert start <= path ==> rel == path[|start|..] by {
      if start <= path {
        CommonPrefixOfAncestor(path, start);
      }
    }
    assert path <= start ==> rel == seq(|start| - |path|, _ => "..") by {
      if path <= start {
        CommonPrefixWhole(path, start);
        assert path[i..] == [];
      }
    }
    if rel == [] then "." else
      assert Normal(path) ==> rel[0] != [] && rel[0] != "." by {
        if Normal(path) && |start| - i == 0 {
          assert rel[0] == path[i];
        }
      }
      assert |rel| >= 2 ==> Join(rel, '/') == rel[0] + ['/'] + Join(rel[1..], '/');
      Join(rel, '/')
  }

  /** `os.path.join(a, b)`: an absolute `b` replaces `a`; otherwise `b` is
      appended to `a` with one separator between them unless `a` is empty or
      already ends with one. */
  function JoinPath(a: string, b: string): (r: string)
    ensures b != [] && b[0] == '/' ==> r == b
    ensures a == [] ==> r == b
    ensures |b| <= |r| && r[|r| - |b|..] == b
    ensures !(b != [] && b[0] == '/') ==> |a| + |b| <= |r| <= |a| + |b| + 1 && r[..|a|] == a
    ensures !(b != [] && b[0] == '/') && a != [] ==> r[|r| - |b| - 1] == '/'
  {
    if b != [] && b[0] == '/' then b
    else if a == [] || a[|a| - 1] == '/' then a + b
    else a + "/" + b
  }

  /** `os.path.splitext(name)` for a name without separators: the extension
      starts at the last dot, unless every character before that dot is a dot
      itself (so `.bashrc` has no extension). */
  function SplitExt(name: string): (r: (string, string))
    ensures r.0 + r.1 == name
    ensures r.1 == [] || (r.1[0] == '.' && '.' !in r.1[1..])
    ensures r.1 != [] <==> exists d :: 0 <= d < |name| && name[d] == '.' && '.' !in name[d + 1..] &&
                                      exists i :: 0 <= i < d && name[i] != '.'
  {
    match LastIndexOf(name, '.')
    case None => (name, "")
    case Some(d) =>
      if exists i :: 0 <= i < d && name[i] != '.' then
        assert name == name[..d] + name[d..];
        assert name[d..][1..] == name[d + 1..];
        (name[..d], name[d..])
      else
        assert forall e :: 0 <= e < |name| && name[e] == '.' && '.' !in name[e + 1..] ==> e == d by {
          AbsentAfter(name, d, '.');
          forall e | 0 <= e < |name| && name[e] == '.' && '.' !in name[e + 1..]
            ensures e == d
          {
            AbsentAfter(name, e, '.');
          }
        }
        (name, "")
  }

  /** The file name without its extension: `os.path.splitext(name)[0]`. */
  function Stem(name: string): string {
    SplitExt(name).0
  }

  /** `os.path.normpath` applied to the pieces of an absolute path, starting
      from the segments already resolved: empty and `.` pieces vanish, `..`
      climbs one level and stops at the root. */
  function Resolve(stack: Path, pieces: seq<string>): (r: Path)
    ensures Normal(stack) && (forall i :: 0 <= i < |pieces| ==> '/' !in pieces[i]) ==> Normal(r)
    decreases |pieces|
  {
    if pieces == [] then stack
    else if pieces[0] == "" || pieces[0] == "." then Resolve(stack, pieces[1..])
    else if pieces[0] == ".." then Resolve(if stack == [] then [] else stack[..|stack| - 1], pieces[1..])
    else Resolve(stack + [pieces[0]], pieces[1..])
  }

  /** `os.path.abspath(s)` with `os.getcwd()` given as `cwd`. */
  function AbsPath(s: string, cwd: Path): (r: Path)
    ensures Normal(cwd) ==> Normal(r)
  {
    Resolve(if s != [] && s[0] == '/' then [] else cwd, Split(s, '/'))
  }

  /** Already-normal segments resolve to themselves. */
  lemma {:induction false} ResolveNormal(stack: Path, p: Path)
    requires Normal(p)
    ensures Resolve(stack, p) == stack + p
    decreases |p|
  {
    if p != [] {
      ResolveNormal(stack + [p[0]], p[1..]);
      assert stack + [p[0]] + p[1..] == stack + p;
    }
  }

  /** `abspath` of a rendered normal path gives the path back. */
  lemma AbsPathRender(p: Path, cwd: Path)
    requires Normal(p)
    ensures AbsPath(Render(p), cwd) == p
  {
    var pieces := if p == [] then ["", ""] else [""] + p;
    assert Render(p) == Join(pieces, '/') by {
      if p != [] {
        assert pieces[1..] == p;
      }
    }
    SplitJoin(pieces, '/');
    if p == [] {
      assert Resolve([], ["", ""]) == Resolve([], [""]) == [];
    } else {
      assert pieces[1..] == p;
      ResolveNormal([], p);
    }
  }

  /** Every additional non-empty segment lengthens the rendered string. */
  lemma {:induction false} RenderGrows(p: Path, q: Path)
    requires p <= q && Normal(q)
    ensures |Render(p)| <= |Render(q)|
    ensures p != q ==> |Render(p)| < |Render(q)|
    decreases |q|
  {
    if p != q {
      var q' := q[..|q| - 1];
      assert q == q' + [q[|q| - 1]];
      JoinAppend(q', q[|q| - 1], '/');
      RenderGrows(p, q');
    }
  }

  /** The string test `commonpath([root, p]).startswith(root)` holds exactly
      when `root` is a segment-wise prefix of `p`; a string prefix alone (as in
      `/srv/img` and `/srv/img2`) is not enough. */
  lemma CommonPathStartsWith(root: Path, p: Path)
    requires Normal(root)
    ensures Render(root) <= Render(CommonPrefix(root, p)) <==> root <= p
  {
    var c := CommonPrefix(root, p);
    CommonPrefixWhole(root, p);
    if !(root <= p) {
      RenderGrows(c, root);
    }
  }
}

=== FILE: png_text.dfy ===
/** Folding the `tEXt` chunks of a PNG file into a key-to-value dict, as the
    library and viewer pages do with the chunk stream pypng reads.

    A `tEXt` chunk (section 11.3.4.3 of the W3C PNG Specification, Second
    Edition) holds a keyword, a null separator and the text. The code splits
    the payload on every null byte and unpacks exactly two pieces, so a
    payload with no null or with two or more raises; it does not check the
    standard's 1-79 byte keyword limit. Key and value are then decoded as
    strict UTF-8, although the standard writes `tEXt` text in Latin-1, so a
    byte such as `0xA9` raises as well. */
module PngText {
  import opened Wrappers
  import opened Seqs
  import opened OrderedDict

  newtype byte = x: int | 0 <= x < 256

  type Bytes = seq<byte>

  /** One `(type, data)` pair of the chunk stream. */
  datatype Chunk = Chunk(kind: Bytes, data: Bytes)

  /** The chunk type `b'tEXt'`. */
  const TEXT: Bytes := [0x74, 0x45, 0x58, 0x74]

  const NUL: byte := 0

  /** The `ValueError` raised by `key, value = data.split(b'\x00')`, and the
      `UnicodeDecodeError` raised by `.decode()`. */
  datatype TextError =
    | NotEnoughValues  // no null byte: one piece
    | TooManyValues    // two or more null bytes: three or more pieces
    | NotUtf8          // the key or the value is not well-formed UTF-8

  /** `key, value = data.split(b'\x00')`: the bytes before and after the only
      null byte, or the error the unpacking raises. */
  function SplitText(data: Bytes): (r: Result<(Bytes, Bytes), TextError>)
    ensures r.Success? <==> multiset(data)[NUL] == 1
    ensures r == Failure(NotEnoughValues) <==> NUL !in data
    ensures r == Failure(TooManyValues) <==> multiset(data)[NUL] >= 2
    ensures r.Success? ==> data == r.value.0 + [NUL] + r.value.1
    ensures r.Success? ==> NUL !in r.value.0 && NUL !in r.value.1
  {
    var parts := Split(data, NUL);
    if |parts| < 2 then Failure(NotEnoughValues)
    else if |parts| > 2 then Failure(TooManyValues)
    else
      assert parts == [parts[0]] + [parts[1]];
      assert parts[1..] == [parts[1]];
      Success((parts[0], parts[1]))
  }

  /** The bytes around the single null byte at position `i` are the key and the value. */
  lemma SplitTextAt(data: Bytes, i: nat)
    requires i < |data| && data[i] == NUL && multiset(data)[NUL] == 1
    ensures SplitText(data) == Success((data[..i], data[i + 1..]))
  {
    var r := SplitText(data);
    var key := r.value.0;
    assert data == key + [NUL] + r.value.1;
    assert data[|key|] == NUL;
    assert data == data[..i] + [NUL] + data[i + 1..];
    assert multiset(data) == multiset(data[..i]) + multiset{NUL} + multiset(data[i + 1..]);
    assert NUL !in data[..i];
    forall t | 0 <= t < i
      ensures data[t] != NUL
    {
      assert data[..i][t] == data[t];
    }
    forall t | 0 <= t < |key|
      ensures data[t] != NUL
    {
      assert data[t] == key[t];
    }
    assert data[..i] == key;
  }

  /** A continuation byte `10xxxxxx`. */
  predicate Continuation(b: byte) {
    0x80 <= b <= 0xBF
  }

  /** The length of the well-formed UTF-8 character `s` starts with, or 0 when
      none does (the table in section 4 of RFC 3629, which Python's strict
      decoder follows: no overlong forms, no surrogates, nothing past U+10FFFF). */
  function CharLength(s: Bytes): (n: nat)
    requires s != []
    ensures n <= |s| && n <= 4
    ensures n == 1 <==> s[0] <= 0x7F
  {
    var b := s[0];
    if b <= 0x7F then 1
    else if 0xC2 <= b <= 0xDF then
      if |s| >= 2 && Continuation(s[1]) then 2 else 0
    else if 0xE0 <= b <= 0xEF then
      var lo: byte := if b == 0xE0 then 0xA0 else 0x80;
      var hi: byte := if b == 0xED then 0x9F else 0xBF;
      if |s| >= 3 && lo <= s[1] <= hi && Continuation(s[2]) then 3 else 0
    else if 0xF0 <= b <= 0xF4 then
      var lo: byte := if b == 0xF0 then 0x90 else 0x80;
      var hi: byte := if b == 0xF4 then 0x8F else 0xBF;
      if |s| >= 4 && lo <= s[1] <= hi && Continuation(s[2]) && Continuation(s[3]) then 4 else 0
    else 0
  }

  /** What `bytes.decode()` accepts: a run of well-formed characters. */
  predicate ValidUtf8(s: Bytes)
    decreases |s|
  {
    s == [] || (CharLength(s) > 0 && ValidUtf8(s[CharLength(s)..]))
  }

  /** ASCII text always decodes. */
  lemma {:induction false} AsciiIsUtf8(s: Bytes)
    requires forall i :: 0 <= i < |s| ==> s[i] <= 0x7F
    ensures ValidUtf8(s)
    decreases |s|
  {
    if s != [] {
      assert forall i :: 0 <= i < |s[1..]| ==> s[1..][i] == s[i + 1];
      AsciiIsUtf8(s[1..]);
    }
  }

  /** A lone continuation byte, such as Latin-1 `0xA9` (the copyright sign),
      does not decode. */
  lemma LoneContinuationIsNotUtf8(s: Bytes)
    requires s != [] && Continuation(s[0])
    ensures !ValidUtf8(s)
  {
  }

  /** `key, value = data.split(b'\x00')` followed by `key.decode()` and
      `value.decode()`; key and value stay bytes, since decoding valid UTF-8
      is injective and the dict compares the same keys either way. */
  function DecodeText(data: Bytes): (r: Result<(Bytes, Bytes), TextError>)
    ensures r.Success? <==> SplitText(data).Success? && ValidUtf8(SplitText(data).value.0) && ValidUtf8(SplitText(data).value.1)
    ensures r.Success? ==> data == r.value.0 + [NUL] + r.value.1
    ensures r == Failure(NotUtf8) <==> SplitText(data).Success? && !r.Success?
    ensures SplitText(data).Failure? ==> r == SplitText(data)
  {
    var kv :- SplitText(data);
    if ValidUtf8(kv.0) && ValidUtf8(kv.1) then Success(kv) else Failure(NotUtf8)
  }

  predicate IsText(c: Chunk) {
    c.kind == TEXT
  }

  /** The key and value a chunk contributes: only a `tEXt` chunk whose payload
      unpacks and decodes. */
  function Entry(c: Chunk): Option<(Bytes, Bytes)> {
    if IsText(c) && DecodeText(c.data).Success? then Some(DecodeText(c.data).value) else None
  }

  /** The value of the LAST contributing chunk with key `k`: a reference
      definition that does not go through a dict. */
  function LastText(chunks: seq<Chunk>, k: Bytes): Option<Bytes> {
    if chunks == [] then None
    else if LastText(chunks[1..], k).Some? then LastText(chunks[1..], k)
    else if Entry(chunks[0]).Some? && Entry(chunks[0]).value.0 == k then Some(Entry(chunks[0]).value.1)
    else None
  }

  /** The loop `for chunk in chunks: if chunk[0] == b'tEXt': ... dict[key] = value`,
      continued from the entries `acc` collected so far; it stops at the first
      `tEXt` chunk whose payload does not unpack or decode. */
  function CollectText(chunks: seq<Chunk>, acc: Dict<Bytes, Bytes>): (r: Result<Dict<Bytes, Bytes>, TextError>)
    ensures r.Success? <==> forall i :: 0 <= i < |chunks| && IsText(chunks[i]) ==> DecodeText(chunks[i].data).Success?
  {
    if chunks == [] then Success(acc)
    else
      var c := chunks[0];
      assert forall i :: 1 <= i < |chunks| ==> chunks[i] == chunks[1..][i - 1];
      if !IsText(c) then CollectText(chunks[1..], acc)
      else
        match DecodeText(c.data)
        case Failure(e) => Failure(e)
        case Success(kv) => CollectText(chunks[1..], Put(acc, kv.0, kv.1))
  }

  /** After the loop each key holds the value of its last `tEXt` chunk, or
      what it held before when no chunk carries it. */
  lemma {:induction false} CollectTextLastWins(chunks: seq<Chunk>, acc: Dict<Bytes, Bytes>, k: Bytes)
    requires CollectText(chunks, acc).Success?
    ensures Get(CollectText(chunks, acc).value, k) == if LastText(chunks, k).Some? then LastText(chunks, k) else Get(acc, k)
  {
    if chunks != [] {
      var c := chunks[0];
      var rest := chunks[1..];
      if !IsText(c) {
        CollectTextLastWins(rest, acc, k);
      } else {
        var kv := DecodeText(c.data).value;
        var acc' := Put(acc, kv.0, kv.1);
        CollectTextLastWins(rest, acc', k);
        assert Entry(c) == Some(kv);
      }
    }
  }

  /** Chunk `i` is the first `tEXt` chunk that fails, and it fails with `e`. */
  predicate FirstFailureAt(chunks: seq<Chunk>, i: int, e: TextError) {
    && 0 <= i < |chunks| && ChunkError(chunks[i]) == Some(e)
    && forall j :: 0 <= j < i ==> ChunkError(chunks[j]).None?
  }

  /** What a chunk makes the loop raise: the error of a `tEXt` chunk that
      does not unpack or decode, and nothing for any other chunk. */
  function ChunkError(c: Chunk): Option<TextError> {
    if IsText(c) && DecodeText(c.data).Failure? then Some(DecodeText(c.data).error) else None
  }

  /** The loop raises `e` exactly when the first `tEXt` chunk that does not
      unpack or decode fails with `e`. */
  lemma {:induction false} CollectTextFirstError(chunks: seq<Chunk>, acc: Dict<Bytes, Bytes>)
    ensures forall e :: CollectText(chunks, acc) == Failure(e) <==> exists i :: FirstFailureAt(chunks, i, e)
  {
    if chunks != [] {
      var c := chunks[0];
      var rest := chunks[1..];
      if IsText(c) && DecodeText(c.data).Failure? {
        var e0 := DecodeText(c.data).error;
        assert FirstFailureAt(chunks, 0, e0);
        forall e, i | FirstFailureAt(chunks, i, e)
          ensures e == e0
        {
          assert i == 0;
        }
      } else {
        var acc' := if IsText(c) then Put(acc, DecodeText(c.data).value.0, DecodeText(c.data).value.1) else acc;
        assert CollectText(chunks, acc) == CollectText(rest, acc');
        CollectTextFirstError(rest, acc');
        FirstFailureShift(chunks);
        forall e, i | FirstFailureAt(rest, i, e)
          ensures FirstFailureAt(chunks, i + 1, e)
        {
        }
      }
    }
  }

  /** When the first chunk does not fail, the first failure overall is the
      first failure of the rest, one position later. */
  lemma FirstFailureShift(chunks: seq<Chunk>)
    requires chunks != [] && ChunkError(chunks[0]).None?
    ensures forall i, e :: FirstFailureAt(chunks, i, e) <==> 1 <= i && FirstFailureAt(chunks[1..], i - 1, e)
  {
    forall i, e
      ensures FirstFailureAt(chunks, i, e) <==> 1 <= i && FirstFailureAt(chunks[1..], i - 1, e)
    {
      FirstFailureShiftAt(chunks, i, e);
    }
  }

  lemma FirstFailureShiftAt(chunks: seq<Chunk>, i: int, e: TextError)
    requires chunks != [] && ChunkError(chunks[0]).None?
    ensures FirstFailureAt(chunks, i, e) <==> 1 <= i && FirstFailureAt(chunks[1..], i - 1, e)
  {
    var rest := chunks[1..];
    if 1 <= i < |chunks| {
      assert chunks[i] == rest[i - 1];
      forall j | 1 <= j < i
        ensures chunks[j] == rest[j - 1]
      {
      }
    }
  }

  /** The keys of the contributing chunks, in chunk order, repeats included. */
  function EntryKeys(chunks: seq<Chunk>): seq<Bytes>
    decreases |chunks|
  {
    if chunks == [] then []
    else
      var last := chunks[|chunks| - 1];
      EntryKeys(chunks[..|chunks| - 1]) + (if Entry(last).Some? then [Entry(last).value.0] else [])
  }

  /** A successful loop over `chunks + [c]` is the loop over `chunks` followed by one step. */
  lemma {:induction false} CollectTextSnoc(chunks: seq<Chunk>, c: Chunk, acc: Dict<Bytes, Bytes>)
    requires CollectText(chunks + [c], acc).Success?
    ensures CollectText(chunks, acc).Success?
    ensures CollectText(chunks + [c], acc) == CollectText([c], CollectText(chunks, acc).value)
    decreases |chunks|
  {
    if chunks == [] {
      assert chunks + [c] == [c];
    } else {
      var h := chunks[0];
      assert (chunks + [c])[0] == h && (chunks + [c])[1..] == chunks[1..] + [c];
      var acc' := if IsText(h) then Put(acc, DecodeText(h.data).value.0, DecodeText(h.data).value.1) else acc;
      CollectTextSnoc(chunks[1..], c, acc');
    }
  }

  /** `png_chunks = {}` followed by the loop. */
  function TextChunks(chunks: seq<Chunk>): Result<Dict<Bytes, Bytes>, TextError> {
    CollectText(chunks, [])
  }

  /** Chunk `i` is a `tEXt` chunk that unpacks to key `k`. */
  predicate KeyedAt(chunks: seq<Chunk>, i: int, k: Bytes) {
    0 <= i < |chunks| && Entry(chunks[i]).Some? && Entry(chunks[i]).value.0 == k
  }

  /** The reference definition picks the value of the last `tEXt` chunk
      carrying key `k`, and answers `None` when no chunk carries it. */
  lemma {:induction false} LastTextIsLast(chunks: seq<Chunk>, k: Bytes)
    ensures LastText(chunks, k).None? <==> forall i :: !KeyedAt(chunks, i, k)
    ensures LastText(chunks, k).Some? ==>
      exists i :: KeyedAt(chunks, i, k) && LastText(chunks, k).value == Entry(chunks[i]).value.1 &&
                  forall j :: i < j ==> !KeyedAt(chunks, j, k)
  {
    if chunks != [] {
      var rest := chunks[1..];
      LastTextIsLast(rest, k);
      forall i | 1 <= i
        ensures KeyedAt(chunks, i, k) <==> KeyedAt(rest, i - 1, k)
      {
        if i < |chunks| {
          assert chunks[i] == rest[i - 1];
        }
      }
      if LastText(rest, k).Some? {
        var i :| KeyedAt(rest, i, k) && LastText(rest, k).value == Entry(rest[i]).value.1 &&
                 forall j :: i < j ==> !KeyedAt(rest, j, k);
        assert KeyedAt(chunks, i + 1, k) && chunks[i + 1] == rest[i];
        forall j | i + 1 < j
          ensures !KeyedAt(chunks, j, k)
        {
          assert !KeyedAt(rest, j - 1, k);
        }
      } else if KeyedAt(chunks, 0, k) {
        forall j | 0 < j
          ensures !KeyedAt(chunks, j, k)
        {
          assert !KeyedAt(rest, j - 1, k);
        }
      } else {
        forall i
          ensures !KeyedAt(chunks, i, k)
        {
          if i >= 1 {
            assert !KeyedAt(rest, i - 1, k);
          }
        }
      }
    }
  }

  /** Folding from an empty dict: every key maps to the value of its last
      `tEXt` chunk, so a later duplicate overrides an earlier one. */
  lemma TextChunksLastWins(chunks: seq<Chunk>, k: Bytes)
    requires TextChunks(chunks).Success?
    ensures Get(TextChunks(chunks).value, k) == LastText(chunks, k)
  {
    CollectTextLastWins(chunks, [], k);
  }

  /** Folding from an empty dict keeps each key at the position of its FIRST
      contributing chunk: assigning an existing key does not move it. */
  lemma {:induction false} TextChunksKeyOrder(chunks: seq<Chunk>)
    requires TextChunks(chunks).Success?
    ensures Keys(TextChunks(chunks).value) == FirstOccurrences(EntryKeys(chunks))
    decreases |chunks|
  {
    if chunks != [] {
      var init := chunks[..|chunks| - 1];
      var c := chunks[|chunks| - 1];
      assert chunks == init + [c];
      CollectTextSnoc(init, c, []);
      TextChunksKeyOrder(init);
      var d := TextChunks(init).value;
      var ks := EntryKeys(init);
      assert [c][0] == c && [c][1..] == [];
      if IsText(c) {
        CollectOne(c, d);
        var k := DecodeText(c.data).value.0;
        assert Entry(c) == Some(DecodeText(c.data).value);
        assert EntryKeys(chunks) == ks + [k];
        assert (ks + [k])[..|ks|] == ks;
      } else {
        assert EntryKeys(chunks) == ks + [];
        assert ks + [] == ks;
      }
    }
  }

  /** A value that is not UTF-8 makes the loop raise, however well the payload unpacks. */
  lemma NotUtf8Fails(key: Bytes, value: Bytes)
    requires NUL !in key && NUL !in value && !ValidUtf8(value)
    ensures TextChunks([Chunk(TEXT, key + [NUL] + value)]) == Failure(NotUtf8)
  {
    SplitTextJoin(key, value);
    var c := Chunk(TEXT, key + [NUL] + value);
    assert [c][0] == c;
  }

  /** The text `A` with the Latin-1 copyright sign `0xA9` as its value is valid
      `tEXt` under the PNG standard, and the page raises on it. */
  lemma Latin1TextFails()
    ensures TextChunks([Chunk(TEXT, [0x41, NUL, 0xA9])]) == Failure(NotUtf8)
  {
    var key: Bytes := [0x41];
    var value: Bytes := [0xA9];
    assert key + [NUL] + value == [0x41, NUL, 0xA9];
    LoneContinuationIsNotUtf8(value);
    NotUtf8Fails(key, value);
  }

  /** Chunks of any other type contribute nothing: folding only the `tEXt`
      chunks gives the same outcome. */
  lemma {:induction false} OnlyTextCounts(chunks: seq<Chunk>, acc: Dict<Bytes, Bytes>)
    ensures CollectText(Filter(chunks, IsText), acc) == CollectText(chunks, acc)
  {
    if chunks != [] {
      OnlyTextCounts(chunks[1..], acc);
      var c := chunks[0];
      if IsText(c) && DecodeText(c.data).Success? {
        var kv := DecodeText(c.data).value;
        OnlyTextCounts(chunks[1..], Put(acc, kv.0, kv.1));
      }
      assert Filter(chunks, IsText) == (if IsText(c) then [c] else []) + Filter(chunks[1..], IsText);
      assert IsText(c) ==> Filter(chunks, IsText)[1..] == Filter(chunks[1..], IsText);
    }
  }

  /** A PNG without `tEXt` chunks yields an empty dict, not an error. */
  lemma NoTextIsEmpty(chunks: seq<Chunk>)
    requires forall i :: 0 <= i < |chunks| ==> !IsText(chunks[i])
    ensures TextChunks(chunks) == Success([])
  {
    NoTextKeepsAcc(chunks, []);
  }

  lemma {:induction false} NoTextKeepsAcc(chunks: seq<Chunk>, acc: Dict<Bytes, Bytes>)
    requires forall i :: 0 <= i < |chunks| ==> !IsText(chunks[i])
    ensures CollectText(chunks, acc) == Success(acc)
  {
    if chunks != [] {
      assert forall i :: 0 <= i < |chunks[1..]| ==> chunks[1..][i] == chunks[i + 1];
      NoTextKeepsAcc(chunks[1..], acc);
    }
  }

  /** Splitting undoes joining a key and a value around one null byte. */
  lemma SplitTextJoin(key: Bytes, value: Bytes)
    requires NUL !in key && NUL !in value
    ensures SplitText(key + [NUL] + value) == Success((key, value))
  {
    var data := key + [NUL] + value;
    assert multiset(data) == multiset(key) + multiset{NUL} + multiset(value);
    assert data[|key|] == NUL;
    assert data[..|key|] == key && data[|key| + 1..] == value;
    SplitTextAt(data, |key|);
  }

  /** Folding one `tEXt` chunk that decodes stores its entry. */
  lemma CollectOne(c: Chunk, acc: Dict<Bytes, Bytes>)
    requires IsText(c) && DecodeText(c.data).Success?
    ensures CollectText([c], acc) == Success(Put(acc, DecodeText(c.data).value.0, DecodeText(c.data).value.1))
  {
    assert [c][0] == c && [c][1..] == [];
  }

  /** One `tEXt` chunk `Parameters\0seed: 42`-style: the dict has exactly that entry. */
  lemma SingleText(key: Bytes, value: Bytes)
    requires NUL !in key && NUL !in value && ValidUtf8(key) && ValidUtf8(value)
    ensures TextChunks([Chunk(TEXT, key + [NUL] + value)]) == Success([(key, value)])
  {
    SplitTextJoin(key, value);
    CollectOne(Chunk(TEXT, key + [NUL] + value), []);
    var empty: Dict<Bytes, Bytes> := [];
    assert Find(empty, key).None?;
    assert Put(empty, key, value) == [(key, value)];
  }
}

=== FILE: seqs.dfy ===
/** Sequence operations shared by the model: Python's `list.index`, list
    comprehensions with a condition, `bytes.split` and `str.join`. */
module Seqs {
  import opened Wrappers

  /** No element occurs twice. */
  predicate Distinct<T(==)>(xs: seq<T>) {
    forall i, j :: 0 <= i < j < |xs| ==> xs[i] != xs[j]
  }

  /** Python's `xs.index(x)` guarded by `x in xs`: the position of the FIRST
      occurrence of `x`, or `None` where Python would raise. */
  function IndexOf<T(==)>(xs: seq<T>, x: T): (r: Option<nat>)
    ensures r.None? <==> x !in xs
    ensures r.Some? ==> r.value < |xs| && xs[r.value] == x && x !in xs[..r.value]
  {
    if xs == [] then None
    else if xs[0] == x then Some(0)
    else
      match IndexOf(xs[1..], x)
      case None => None
      case Some(i) =>
        assert xs[..i + 1] == [xs[0]] + xs[1..][..i];
        Some(i + 1)
  }

  /** In a sequence without repetitions, every position is the first
      occurrence of its element. */
  lemma {:induction false} IndexOfDistinct<T>(xs: seq<T>, i: nat)
    requires Distinct(xs) && i < |xs|
    ensures IndexOf(xs, xs[i]) == Some(i)
  {
    var r := IndexOf(xs, xs[i]);
    assert xs[r.value] == xs[i];
  }

  /** `xs` occurs in `ys` in the same relative order, possibly with gaps. */
  predicate IsSubseq<T(==)>(xs: seq<T>, ys: seq<T>)
    decreases |ys|
  {
    xs == [] ||
    (ys != [] && (IsSubseq(xs, ys[1..]) || (xs[0] == ys[0] && IsSubseq(xs[1..], ys[1..]))))
  }

  /** The list comprehension `[x for x in s if p(x)]`. */
  function Filter<T(==,!new)>(s: seq<T>, p: T -> bool): (r: seq<T>)
    ensures forall x :: x in r <==> x in s && p(x)
    ensures forall x :: multiset(r)[x] == if p(x) then multiset(s)[x] else 0
    ensures IsSubseq(r, s)
  {
    if s == [] then []
    else
      var rest := Filter(s[1..], p);
      assert s == [s[0]] + s[1..];
      if p(s[0]) then [s[0]] + rest else rest
  }

  /** Nothing passes when no element satisfies the condition. */
  lemma {:induction false} FilterNone<T(!new)>(s: seq<T>, p: T -> bool)
    requires forall i :: 0 <= i < |s| ==> !p(s[i])
    ensures Filter(s, p) == []
  {
    if s != [] {
      assert forall i :: 0 <= i < |s[1..]| ==> s[1..][i] == s[i + 1];
      FilterNone(s[1..], p);
    }
  }

  /** Filtering a sequence that starts with `x` keeps `x` exactly when it passes. */
  lemma FilterCons<T(!new)>(x: T, s: seq<T>, p: T -> bool)
    ensures Filter([x] + s, p) == (if p(x) then [x] else []) + Filter(s, p)
  {
    assert ([x] + s)[0] == x && ([x] + s)[1..] == s;
  }

  /** A sequence in which nothing is counted twice has no repetitions. */
  lemma DistinctByCount<T>(s: seq<T>)
    requires forall x :: x in s ==> multiset(s)[x] <= 1
    ensures Distinct(s)
  {
    forall i, j | 0 <= i < j < |s|
      ensures s[i] != s[j]
    {
      if s[i] == s[j] {
        TwoPositionsCount(s, i, j);
      }
    }
  }

  /** Conditions that agree everywhere select the same elements. */
  lemma {:induction false} FilterCongruent<T(!new)>(s: seq<T>, p: T -> bool, q: T -> bool)
    requires forall x :: p(x) == q(x)
    ensures Filter(s, p) == Filter(s, q)
  {
    if s != [] {
      FilterCongruent(s[1..], p, q);
    }
  }

  lemma {:induction false} DistinctCount<T>(s: seq<T>, x: T)
    requires Distinct(s)
    ensures multiset(s)[x] <= 1
  {
    if s != [] {
      assert s == [s[0]] + s[1..];
      assert Distinct(s[1..]);
      DistinctCount(s[1..], x);
      if s[0] == x {
        assert x !in s[1..];
      }
    }
  }

  lemma TwoPositionsCount<T>(s: seq<T>, i: nat, j: nat)
    requires i < j < |s| && s[i] == s[j]
    ensures multiset(s)[s[i]] >= 2
  {
    assert s == s[..i] + [s[i]] + s[i + 1..j] + [s[j]] + s[j + 1..];
  }

  /** `xs` with every occurrence of `x` removed. */
  function Erase<T(==,!new)>(xs: seq<T>, x: T): (r: seq<T>)
    ensures x !in r
    ensures forall y :: y != x ==> (y in r <==> y in xs)
    ensures IsSubseq(r, xs)
  {
    if xs == [] then []
    else if xs[0] == x then Erase(xs[1..], x)
    else [xs[0]] + Erase(xs[1..], x)
  }

  /** Removing the only occurrence of `xs[i]` is the same as cutting out position `i`. */
  lemma {:induction false} EraseAt<T(!new)>(xs: seq<T>, i: nat)
    requires Distinct(xs) && i < |xs|
    ensures Erase(xs, xs[i]) == xs[..i] + xs[i + 1..]
  {
    if i == 0 {
      EraseAbsent(xs[1..], xs[0]);
    } else {
      assert Distinct(xs[1..]);
      EraseAt(xs[1..], i - 1);
      assert xs[1..][i - 1] == xs[i];
      assert xs[..i] == [xs[0]] + xs[1..][..i - 1];
      assert xs[1..][i..] == xs[i + 1..];
    }
  }

  lemma {:induction false} EraseAbsent<T(!new)>(xs: seq<T>, x: T)
    requires x !in xs
    ensures Erase(xs, x) == xs
  {
    if xs != [] {
      EraseAbsent(xs[1..], x);
    }
  }

  /** Python's `sep.join(parts)` for one-element separators. */
  function Join<T>(parts: seq<seq<T>>, sep: T): seq<T>
  {
    if |parts| == 0 then []
    else if |parts| == 1 then parts[0]
    else parts[0] + [sep] + Join(parts[1..], sep)
  }

  /** Python's `s.split(sep)` with an explicit one-element separator: one more
      piece than there are separators, none of them containing `sep`. */
  function Split<T(==)>(s: seq<T>, sep: T): (r: seq<seq<T>>)
    ensures |r| == multiset(s)[sep] + 1
    ensures forall i :: 0 <= i < |r| ==> sep !in r[i]
    ensures Join(r, sep) == s
    decreases |s|
  {
    match IndexOf(s, sep)
    case None =>
      assert multiset(s)[sep] == 0;
      [s]
    case Some(i) =>
      var rest := Split(s[i + 1..], sep);
      assert s == s[..i] + [sep] + s[i + 1..];
      assert multiset(s) == multiset(s[..i]) + multiset{sep} + multiset(s[i + 1..]);
      assert multiset(s[..i])[sep] == 0;
      var r := [s[..i]] + rest;
      assert r[1..] == rest;
      r
  }

  /** Splitting undoes joining, provided no part contains the separator. */
  lemma {:induction false} SplitJoin<T>(parts: seq<seq<T>>, sep: T)
    requires |parts| >= 1
    requires forall i :: 0 <= i < |parts| ==> sep !in parts[i]
    ensures Split(Join(parts, sep), sep) == parts
  {
    if |parts| == 1 {
      assert IndexOf(parts[0], sep).None?;
    } else {
      var tail := parts[1..];
      assert forall i :: 0 <= i < |tail| ==> tail[i] == parts[i + 1];
      assert Join(parts, sep) == parts[0] + [sep] + Join(tail, sep);
      SplitCons(parts[0], Join(tail, sep), sep);
      SplitJoin(tail, sep);
      assert parts == [parts[0]] + tail;
    }
  }

  /** A separator-free head up to the first separator is the first piece. */
  lemma SplitCons<T>(a: seq<T>, rest: seq<T>, sep: T)
    requires sep !in a
    ensures Split(a + [sep] + rest, sep) == [a] + Split(rest, sep)
  {
    var s := a + [sep] + rest;
    assert s[|a|] == sep;
    var j := IndexOf(s, sep).value;
    forall t | 0 <= t < |a|
      ensures s[t] != sep
    {
      assert s[t] == a[t];
    }
    assert j == |a|;
    assert s[..|a|] == a;
    assert s[|a| + 1..] == rest;
  }

  /** Python's `s.rfind(x)`: the position of the LAST occurrence of `x`, if any. */
  function LastIndexOf<T(==)>(xs: seq<T>, x: T): (r: Option<nat>)
    ensures r.None? <==> x !in xs
    ensures r.Some? ==> r.value < |xs| && xs[r.value] == x && x !in xs[r.value + 1..]
  {
    if xs == [] then None
    else if xs[|xs| - 1] == x then Some(|xs| - 1)
    else
      assert xs == xs[..|xs| - 1] + [xs[|xs| - 1]];
      match LastIndexOf(xs[..|xs| - 1], x)
      case None => None
      case Some(i) =>
        assert xs[i + 1..] == xs[..|xs| - 1][i + 1..] + [xs[|xs| - 1]];
        Some(i)
  }

  /** The elements of `s` in order, each once, at its first occurrence:
      every later repeat is dropped. */
  function FirstOccurrences<T(==,!new)>(s: seq<T>): (r: seq<T>)
    ensures forall x :: x in r <==> x in s
    ensures Distinct(r)
    decreases |s|
  {
    if s == [] then []
    else
      var init := FirstOccurrences(s[..|s| - 1]);
      var x := s[|s| - 1];
      assert s == s[..|s| - 1] + [x];
      if x in init then init else init + [x]
  }

  /** Nothing past position `d` equals `c` when the tail after `d` lacks it. */
  lemma AbsentAfter<T>(s: seq<T>, d: nat, c: T)
    requires d < |s| && c !in s[d + 1..]
    ensures forall t :: d < t < |s| ==> s[t] != c
  {
    forall t | d < t < |s|
      ensures s[t] != c
    {
      assert s[d + 1..][t - d - 1] == s[t];
    }
  }

  /** Joining one more part appends the separator and the part. */
  lemma {:induction false} JoinAppend<T>(parts: seq<seq<T>>, x: seq<T>, sep: T)
    ensures Join(parts + [x], sep) == if parts == [] then x else Join(parts, sep) + [sep] + x
  {
    if |parts| > 1 {
      assert (parts + [x])[1..] == parts[1..] + [x];
      JoinAppend(parts[1..], x, sep);
    }
  }
}

=== FILE: sorting.dfy ===
/** Python's `sorted`: a stable sort. `le(a, b)` means "a may come before b";
    `sorted(xs, key=f, reverse=True)` is `le(a, b) := f(a) >= f(b)`, because
    Python keeps equal elements in their original order even when reversing. */
module Sorting {
  import opened Seqs

  /** Every pair is comparable and the order is transitive. */
  ghost predicate TotalPreorder<T(!new)>(le: (T, T) -> bool) {
    && (forall a, b :: le(a, b) || le(b, a))
    && (forall a, b, c :: le(a, b) && le(b, c) ==> le(a, c))
  }

  predicate SortedBy<T>(s: seq<T>, le: (T, T) -> bool) {
    forall i, j :: 0 <= i < j < |s| ==> le(s[i], s[j])
  }

  /** Elements that `le` cannot tell apart from `c`. */
  function EquivalentTo<T>(le: (T, T) -> bool, c: T): T -> bool {
    x => le(x, c) && le(c, x)
  }

  /** Places `x` in front of the first element it may precede. */
  function Insert<T(!new)>(x: T, s: seq<T>, le: (T, T) -> bool): (r: seq<T>)
    ensures multiset(r) == multiset(s) + multiset{x}
  {
    if s == [] || le(x, s[0]) then
      [x] + s
    else
      assert s == [s[0]] + s[1..];
      [s[0]] + Insert(x, s[1..], le)
  }

  lemma {:induction false} InsertSorted<T(!new)>(x: T, s: seq<T>, le: (T, T) -> bool)
    requires TotalPreorder(le) && SortedBy(s, le)
    ensures SortedBy(Insert(x, s, le), le)
  {
    if s != [] && !le(x, s[0]) {
      var rest := Insert(x, s[1..], le);
      InsertSorted(x, s[1..], le);
      assert s == [s[0]] + s[1..];
      var r := [s[0]] + rest;
      assert le(s[0], x);
      forall j | 1 <= j < |r|
        ensures le(s[0], r[j])
      {
        assert r[j] in multiset(rest);
        assert r[j] == x || r[j] in s[1..];
      }
    }
  }

  /** Insertion sort, inserting the elements from the last to the first. */
  function Sort<T(!new)>(s: seq<T>, le: (T, T) -> bool): (r: seq<T>)
    ensures multiset(r) == multiset(s)
    ensures TotalPreorder(le) ==> SortedBy(r, le)
  {
    if s == [] then []
    else
      assert s == [s[0]] + s[1..];
      var r := Insert(s[0], Sort(s[1..], le), le);
      assert TotalPreorder(le) ==> SortedBy(r, le) by {
        if TotalPreorder(le) {
          InsertSorted(s[0], Sort(s[1..], le), le);
        }
      }
      r
  }

  /** Inserting `x` into any sequence keeps the order among the elements
      equivalent to `c`: an equivalent `x` only passes elements that must
      precede it, and those are not equivalent to `c`. */
  lemma {:induction false} InsertStable<T(!new)>(x: T, s: seq<T>, le: (T, T) -> bool, c: T)
    requires TotalPreorder(le)
    ensures Filter(Insert(x, s, le), EquivalentTo(le, c)) == Filter([x] + s, EquivalentTo(le, c))
  {
    var p := EquivalentTo(le, c);
    if s != [] && !le(x, s[0]) {
      InsertStable(x, s[1..], le, c);
      assert s == [s[0]] + s[1..];
      FilterCons(s[0], Insert(x, s[1..], le), p);
      FilterCons(x, s[1..], p);
      FilterCons(s[0], s[1..], p);
      FilterCons(x, s, p);
      assert p(x) ==> !p(s[0]);
    }
  }

  /** The sort is stable: among elements equivalent to any `c`, the output
      keeps the input order. */
  lemma {:induction false} SortStable<T(!new)>(s: seq<T>, le: (T, T) -> bool, c: T)
    requires TotalPreorder(le)
    ensures Filter(Sort(s, le), EquivalentTo(le, c)) == Filter(s, EquivalentTo(le, c))
  {
    if s != [] {
      var p := EquivalentTo(le, c);
      SortStable(s[1..], le, c);
      InsertStable(s[0], Sort(s[1..], le), le, c);
      FilterCons(s[0], Sort(s[1..], le), p);
      FilterCons(s[0], s[1..], p);
      assert s == [s[0]] + s[1..];
    }
  }

  /** `sorted([x for x in s if p(x)], ...)`: exactly the elements meeting the
      condition, each as often as in `s`. */
  lemma SortFilter<T(!new)>(s: seq<T>, p: T -> bool, le: (T, T) -> bool)
    ensures forall x :: x in Sort(Filter(s, p), le) <==> x in s && p(x)
    ensures forall x :: multiset(Sort(Filter(s, p), le))[x] == if p(x) then multiset(s)[x] else 0
  {
    var f := Filter(s, p);
    var r := Sort(f, le);
    forall x
      ensures x in r <==> x in f
    {
      assert x in r <==> multiset(r)[x] > 0;
      assert x in f <==> multiset(f)[x] > 0;
    }
  }
}

=== FILE: strings.dfy ===
/** Python string operators used by the code: the substring test `t in s`
    and the ordering `a <= b` that `sorted` applies to names. */
module Strings {

  /** `t` occurs in `s` starting at position `i`. */
  predicate OccursAt(t: string, s: string, i: int) {
    0 <= i && i + |t| <= |s| && s[i..i + |t|] == t
  }

  /** Python's `t in s` for strings: a left-to-right search. */
  predicate IsSubstring(t: string, s: string)
    decreases |s|
  {
    t <= s || (s != [] && IsSubstring(t, s[1..]))
  }

  /** The search answers yes exactly when some position holds `t`. */
  lemma {:induction false} IsSubstringIff(t: string, s: string)
    ensures IsSubstring(t, s) <==> exists i :: OccursAt(t, s, i)
    decreases |s|
  {
    if t <= s {
      assert s[0..|t|] == t;
      assert OccursAt(t, s, 0);
    } else if s == [] {
      assert forall i :: !OccursAt(t, s, i);
    } else {
      IsSubstringIff(t, s[1..]);
      if IsSubstring(t, s[1..]) {
        var i :| OccursAt(t, s[1..], i);
        assert s[1..][i..i + |t|] == s[i + 1..i + 1 + |t|];
        assert OccursAt(t, s, i + 1);
      }
      assert !OccursAt(t, s, 0) by {
        assert |t| <= |s| ==> s[0..|t|] == s[..|t|];
      }
      forall i | OccursAt(t, s, i)
        ensures OccursAt(t, s[1..], i - 1)
      {
        assert s[1..][i - 1..i - 1 + |t|] == s[i..i + |t|];
      }
    }
  }

  /** Python's `a <= b` on `str`: code-point lexicographic order, a proper
      prefix sorting first. */
  predicate LexLe(a: string, b: string)
    decreases |a|
  {
    if a == [] then true
    else if b == [] then false
    else if a[0] != b[0] then a[0] < b[0]
    else LexLe(a[1..], b[1..])
  }

  lemma {:induction false} LexLeTotal(a: string, b: string)
    ensures LexLe(a, b) || LexLe(b, a)
    decreases |a|
  {
    if a != [] && b != [] && a[0] == b[0] {
      LexLeTotal(a[1..], b[1..]);
    }
  }

  lemma {:induction false} LexLeTransitive(a: string, b: string, c: string)
    requires LexLe(a, b) && LexLe(b, c)
    ensures LexLe(a, c)
    decreases |a|
  {
    if a != [] && b != [] && c != [] && a[0] == b[0] && b[0] == c[0] {
      LexLeTransitive(a[1..], b[1..], c[1..]);
    }
  }

  lemma {:induction false} LexLeAntisymmetric(a: string, b: string)
    requires LexLe(a, b) && LexLe(b, a)
    ensures a == b
    decreases |a|
  {
    if a != [] && b != [] {
      LexLeAntisymmetric(a[1..], b[1..]);
      assert a == [a[0]] + a[1..];
      assert b == [b[0]] + b[1..];
    }
  }
}

=== FILE: viewer.dfy ===
/** The prototype directory viewer in `viewer.py`: its own `ImageRepository`
    that lists one directory newest first, and the `/` page with its
    directory-traversal guard, the sorted subdirectories, the previous/next
    images and the PNG metadata of the selected file. */
module Viewer {
  import opened Wrappers
  import opened Seqs
  import opened Strings
  import opened Sorting
  import opened OrderedDict
  import opened Paths
  import opened PngText
  import opened Files
  import opened Navigation

  /** `os.path.join(directory, f)` for an entry of the listed directory. */
  function EntryPath(directory: Path, f: string): string {
    JoinPath(Render(directory), f)
  }

  /** `os.path.isfile(...) and imghdr.what(...)` */
  predicate IsImageFile(fs: FileSystem, directory: Path, f: string) {
    fs.isFile(EntryPath(directory, f)) && IsImage(fs.what(EntryPath(directory, f)))
  }

  /** The list comprehension in the viewer's `list()`, before sorting. */
  function Candidates(fs: FileSystem, directory: Path): seq<string> {
    Filter(fs.listdir(Render(directory)), f => IsImageFile(fs, directory, f))
  }

  /** `key=st_ctime, reverse=True` as a "may come first" relation. */
  function NewestFirst(fs: FileSystem, directory: Path): (string, string) -> bool {
    (a, b) => fs.ctime(EntryPath(directory, a)) >= fs.ctime(EntryPath(directory, b))
  }

  lemma NewestFirstIsTotalPreorder(fs: FileSystem, directory: Path)
    ensures TotalPreorder(NewestFirst(fs, directory))
  {
  }

  /** `ImageRepository.list()`: the image files of the directory, each as
      often as `listdir` names it, newest first. */
  function ListImages(fs: FileSystem, directory: Path): (r: seq<string>)
    ensures forall f :: f in r <==> f in fs.listdir(Render(directory)) && IsImageFile(fs, directory, f)
    ensures forall f :: multiset(r)[f] == if IsImageFile(fs, directory, f) then multiset(fs.listdir(Render(directory)))[f] else 0
    ensures forall i, j :: 0 <= i < j < |r| ==> fs.ctime(EntryPath(directory, r[i])) >= fs.ctime(EntryPath(directory, r[j]))
  {
    NewestFirstIsTotalPreorder(fs, directory);
    SortFilter(fs.listdir(Render(directory)), f => IsImageFile(fs, directory, f), NewestFirst(fs, directory));
    Sort(Candidates(fs, directory), NewestFirst(fs, directory))
  }

  /** Entries created at the same moment as `t`. */
  function SameCtime(fs: FileSystem, directory: Path, t: string): string -> bool {
    f => fs.ctime(EntryPath(directory, f)) == fs.ctime(EntryPath(directory, t))
  }

  /** The sort is stable under `reverse=True`: image files with equal
      creation times keep the order `listdir` gave them. */
  lemma ListImagesStable(fs: FileSystem, directory: Path, t: string)
    ensures Filter(ListImages(fs, directory), SameCtime(fs, directory, t)) ==
            Filter(Candidates(fs, directory), SameCtime(fs, directory, t))
  {
    var le := NewestFirst(fs, directory);
    NewestFirstIsTotalPreorder(fs, directory);
    SortStable(Candidates(fs, directory), le, t);
    FilterCongruent(ListImages(fs, directory), SameCtime(fs, directory, t), EquivalentTo(le, t));
    FilterCongruent(Candidates(fs, directory), SameCtime(fs, directory, t), EquivalentTo(le, t));
  }

  /** `listdir` names every entry once, so the listing has no repetitions. */
  lemma ListImagesDistinct(fs: FileSystem, directory: Path)
    requires Distinct(fs.listdir(Render(directory)))
    ensures Distinct(ListImages(fs, directory))
  {
    var r := ListImages(fs, directory);
    forall f | f in r
      ensures multiset(r)[f] <= 1
    {
      DistinctCount(fs.listdir(Render(directory)), f);
    }
    DistinctByCount(r);
  }

  /** `sorted(...)` of the subdirectory names: code-point order. */
  lemma LexLeIsTotalPreorder()
    ensures TotalPreorder(LexLe)
  {
    forall a, b ensures LexLe(a, b) || LexLe(b, a) {
      LexLeTotal(a, b);
    }
    forall a, b, c | LexLe(a, b) && LexLe(b, c)
      ensures LexLe(a, c)
    {
      LexLeTransitive(a, b, c);
    }
  }

  /** The `directories` of `index()`: the subdirectories of the directory, each as often as
      `listdir` names it, in ascending order. */
  function Directories(fs: FileSystem, directory: Path): (r: seq<string>)
    ensures forall f :: f in r <==> f in fs.listdir(Render(directory)) && fs.isDir(EntryPath(directory, f))
    ensures forall f :: multiset(r)[f] == if fs.isDir(EntryPath(directory, f)) then multiset(fs.listdir(Render(directory)))[f] else 0
    ensures forall i, j :: 0 <= i < j < |r| ==> LexLe(r[i], r[j])
  {
    LexLeIsTotalPreorder();
    SortFilter(fs.listdir(Render(directory)), f => fs.isDir(EntryPath(directory, f)), LexLe);
    Sort(Filter(fs.listdir(Render(directory)), f => fs.isDir(EntryPath(directory, f))), LexLe)
  }

  /** The traversal guard of `index()`: keep `current` when `commonpath([image_dir, current])`
      starts with `image_dir` as a string, otherwise fall back to `image_dir`.
      The string test is exactly segment-wise containment. */
  function Guard(imageDir: Path, current: Path): (r: Path)
    ensures r == current || r == imageDir
    ensures Normal(imageDir) ==> imageDir <= r
    ensures Normal(imageDir) ==> (r == current <==> imageDir <= current)
  {
    assert Normal(imageDir) ==> (Render(imageDir) <= Render(CommonPrefix(imageDir, current)) <==> imageDir <= current) by {
      if Normal(imageDir) {
        CommonPathStartsWith(imageDir, current);
      }
    }
    if Render(imageDir) <= Render(CommonPrefix(imageDir, current)) then current else imageDir
  }

  /** A sibling whose name merely extends the image directory's name passes
      a plain string-prefix test but not the guard. */
  lemma GuardRejectsSibling()
    ensures Render(["srv", "img"]) <= Render(["srv", "img2"])
    ensures Guard(["srv", "img"], ["srv", "img2"]) == ["srv", "img"]
  {
    assert Join(["srv", "img"], '/') == "srv/img" by {
      assert ["srv", "img"][1..] == ["img"];
    }
    assert Join(["srv", "img2"], '/') == "srv/img2" by {
      assert ["srv", "img2"][1..] == ["img2"];
    }
    assert "/srv/img" == "/srv/img2"[..8];
    assert Normal(["srv", "img"]);
    assert !(["srv", "img"] <= ["srv", "img2"]) by {
      assert ["srv", "img2"][1] != "img";
    }
  }

  /** The current directory of `index()`: the `dir` argument, `image_dir` by
      default, made absolute against the working directory `cwd` and passed
      through the guard. A requested directory inside `image_dir` is kept. */
  function CurrentDir(imageDir: Path, cwd: Path, dirArg: Option<string>): (r: Path)
    ensures
      var requested := AbsPath(dirArg.GetOr(Render(imageDir)), cwd);
      && (r == requested || r == imageDir)
      && (Normal(imageDir) && Normal(cwd) ==> (r == requested <==> imageDir <= requested))
    ensures Normal(imageDir) && Normal(cwd) ==> Normal(r) && imageDir <= r
    ensures Normal(imageDir) && dirArg.None? ==> r == imageDir
  {
    assert Normal(imageDir) && dirArg.None? ==> AbsPath(Render(imageDir), cwd) == imageDir by {
      if Normal(imageDir) && dirArg.None? {
        AbsPathRender(imageDir, cwd);
      }
    }
    Guard(imageDir, AbsPath(dirArg.GetOr(Render(imageDir)), cwd))
  }

  /** The next/previous block of `index()`: neighbours only for a non-empty selected name that is
      listed. */
  function Neighbourhood(images: seq<string>, selected: Option<string>): (r: Neighbours<string>)
    ensures r.index.Some? <==> selected.Some? && selected.value != "" && selected.value in images
    ensures r.index.None? ==> r.prev.None? && r.next.None?
    ensures r.index.Some? ==>
      var i := r.index.value;
      && i < |images| && images[i] == selected.value && selected.value !in images[..i]
      && r.prev == (if i > 0 then Some(images[i - 1]) else None)
      && r.next == (if i < |images| - 1 then Some(images[i + 1]) else None)
  {
    if selected.Some? && selected.value != "" && selected.value in images then Adjacent(images, selected.value)
    else Neighbours(None, None, None)
  }

  /** Selecting the listed image at position `i` yields the images at `i - 1`
      and `i + 1` as previous and next: listing order is newest first, so the
      previous image is the newer one. */
  lemma NeighbourhoodAt(fs: FileSystem, directory: Path, i: nat)
    requires Distinct(fs.listdir(Render(directory)))
    requires i < |ListImages(fs, directory)| && ListImages(fs, directory)[i] != ""
    ensures
      var images := ListImages(fs, directory);
      var n := Neighbourhood(images, Some(images[i]));
      && n.index == Some(i)
      && n.prev == (if i > 0 then Some(images[i - 1]) else None)
      && n.next == (if i < |images| - 1 then Some(images[i + 1]) else None)
  {
    ListImagesDistinct(fs, directory);
    AdjacentAt(ListImages(fs, directory), i);
  }

  /** The metadata block of `index()` as written: any non-empty `image` argument is joined to the
      current directory and that file is read, whether or not it is listed. */
  function MetadataPath(current: Path, selected: Option<string>): (r: Option<string>)
    ensures r.Some? <==> selected.Some? && selected.value != ""
    ensures r.Some? && selected.value[0] == '/' ==> r.value == selected.value
  {
    if selected.Some? && selected.value != "" then Some(EntryPath(current, selected.value)) else None
  }

  /** The corrected read: only an entry the page lists is joined to the
      current directory. */
  function ConfinedMetadataPath(current: Path, images: seq<string>, selected: Option<string>): (r: Option<string>)
    ensures r.Some? <==> selected.Some? && selected.value != "" && selected.value in images
    ensures r.Some? ==> r == MetadataPath(current, selected)
  {
    if selected.Some? && selected.value != "" && selected.value in images then Some(EntryPath(current, selected.value)) else None
  }

  /** What `index()` hands to its template, without `image_metadata`. */
  datatype Page = Page(
    directories: seq<string>,
    images: seq<string>,
    selected: Option<string>,
    currentDir: Path,
    next: Option<string>,
    prev: Option<string>,
    pngChunks: Option<Dict<Bytes, Bytes>>,
    imageDir: Path)

  /** The page for the current directory, reading metadata from `target`. */
  function Assemble(fs: FileSystem, imageDir: Path, current: Path, selected: Option<string>, target: Option<string>): Result<Page, TextError> {
    var images := ListImages(fs, current);
    var around := Neighbourhood(images, selected);
    var chunks :- PngMetadata(fs, target);
    Success(Page(Directories(fs, current), images, selected, current, around.next, around.prev, chunks, imageDir))
  }

  /** `index()` as written. */
  function Index(fs: FileSystem, imageDir: Path, cwd: Path, dirArg: Option<string>, selected: Option<string>): (r: Result<Page, TextError>)
    ensures
      var current := CurrentDir(imageDir, cwd, dirArg);
      var target := MetadataPath(current, selected);
      r.Failure? <==>
        target.Some? && fs.what(target.value) == Some(Png) && TextChunks(fs.chunks(target.value)).Failure?
    ensures
      var current := CurrentDir(imageDir, cwd, dirArg);
      var around := Neighbourhood(ListImages(fs, current), selected);
      r.Success? ==>
        && r.value.currentDir == current && r.value.images == ListImages(fs, current)
        && r.value.next == around.next && r.value.prev == around.prev
    ensures
      var current := CurrentDir(imageDir, cwd, dirArg);
      r.Success? ==>
        && r.value.directories == Directories(fs, current) && r.value.selected == selected
        && r.value.imageDir == imageDir
        && r.value.pngChunks == PngMetadata(fs, MetadataPath(current, selected)).value
    ensures Normal(imageDir) && Normal(cwd) && r.Success? ==> imageDir <= r.value.currentDir
    ensures r.Success? && r.value.pngChunks.Some? ==> selected.Some? && selected.value != ""
  {
    var current := CurrentDir(imageDir, cwd, dirArg);
    Assemble(fs, imageDir, current, selected, MetadataPath(current, selected))
  }

  /** `index()` reading metadata only for a listed image. */
  function ConfinedIndex(fs: FileSystem, imageDir: Path, cwd: Path, dirArg: Option<string>, selected: Option<string>): (r: Result<Page, TextError>)
    ensures
      var current := CurrentDir(imageDir, cwd, dirArg);
      var target := ConfinedMetadataPath(current, ListImages(fs, current), selected);
      r.Failure? <==>
        target.Some? && fs.what(target.value) == Some(Png) && TextChunks(fs.chunks(target.value)).Failure?
    ensures
      var current := CurrentDir(imageDir, cwd, dirArg);
      var around := Neighbourhood(ListImages(fs, current), selected);
      r.Success? ==>
        && r.value.currentDir == current && r.value.images == ListImages(fs, current)
        && r.value.next == around.next && r.value.prev == around.prev
    ensures
      var current := CurrentDir(imageDir, cwd, dirArg);
      r.Success? ==>
        && r.value.directories == Directories(fs, current) && r.value.selected == selected
        && r.value.imageDir == imageDir
        && r.value.pngChunks == PngMetadata(fs, ConfinedMetadataPath(current, ListImages(fs, current), selected)).value
    ensures Normal(imageDir) && Normal(cwd) && r.Success? ==> imageDir <= r.value.currentDir
    ensures r.Success? && r.value.pngChunks.Some? ==> selected.Some? && selected.value in r.value.images
  {
    var current := CurrentDir(imageDir, cwd, dirArg);
    Assemble(fs, imageDir, current, selected, ConfinedMetadataPath(current, ListImages(fs, current), selected))
  }

  /** Joining a plain name to a rendered path renders the extended path. */
  lemma EntryPathRender(p: Path, f: string)
    requires Normal(p + [f])
    ensures EntryPath(p, f) == Render(p + [f])
  {
    assert (p + [f])[|p|] == f;
    JoinAppend(p, f, '/');
    if p != [] {
      assert Normal(p) by {
        forall i | 0 <= i < |p|
          ensures (p + [f])[i] == p[i]
        {
        }
      }
      RenderEndsInSegment(p);
      assert f != [] && f[0] != '/';
    }
  }

  /** A non-empty normal path renders without a trailing separator. */
  lemma RenderEndsInSegment(p: Path)
    requires p != [] && Normal(p)
    ensures Render(p) != [] && Render(p)[|Render(p)| - 1] != '/'
  {
    var last := p[|p| - 1];
    JoinAppend(p[..|p| - 1], last, '/');
    assert p[..|p| - 1] + [last] == p;
    assert Render(p)[|Render(p)| - 1] == last[|last| - 1];
  }

  /** Directory entries are plain names, as `os.listdir` returns them. */
  ghost predicate PlainNames(fs: FileSystem) {
    forall d, f :: f in fs.listdir(d) ==> Normal([f])
  }

  /** The corrected read stays inside the image directory: the file it opens
      resolves to a listed entry of the guarded current directory. */
  lemma ConfinedMetadataStaysInside(fs: FileSystem, imageDir: Path, cwd: Path, dirArg: Option<string>, selected: Option<string>)
    requires Normal(imageDir) && Normal(cwd) && PlainNames(fs)
    ensures
      var current := CurrentDir(imageDir, cwd, dirArg);
      var target := ConfinedMetadataPath(current, ListImages(fs, current), selected);
      target.Some? ==>
        && AbsPath(target.value, cwd) == current + [selected.value]
        && imageDir <= AbsPath(target.value, cwd)
  {
    var current := CurrentDir(imageDir, cwd, dirArg);
    var images := ListImages(fs, current);
    if selected.Some? && selected.value in images {
      ListedEntryResolves(fs, current, selected.value, cwd);
    }
  }

  /** A listed entry of a normal directory resolves to that directory plus
      the entry's name. */
  lemma ListedEntryResolves(fs: FileSystem, current: Path, f: string, cwd: Path)
    requires Normal(current) && PlainNames(fs) && f in ListImages(fs, current)
    ensures AbsPath(EntryPath(current, f), cwd) == current + [f]
  {
    assert f in fs.listdir(Render(current));
    EntryResolves(current, f, cwd);
  }

  /** A plain name joined to a normal directory resolves to the extended path. */
  lemma EntryResolves(current: Path, f: string, cwd: Path)
    requires Normal(current) && Normal([f])
    ensures AbsPath(EntryPath(current, f), cwd) == current + [f]
  {
    assert Normal(current + [f]) by {
      forall i | 0 <= i < |current + [f]|
        ensures (current + [f])[i] == if i < |current| then current[i] else [f][0]
      {
      }
    }
    EntryPathRender(current, f);
    AbsPathRender(current + [f], cwd);
  }


  /** The code as written reads any absolute `image` argument as it is: with
      no `dir` argument the guard keeps the image directory, yet the page
      opens a file outside it. */
  lemma MetadataIgnoresGuard(imageDir: Path, cwd: Path, outside: Path)
    requires Normal(imageDir) && Normal(outside) && !(imageDir <= outside)
    ensures
      var current := CurrentDir(imageDir, cwd, None);
      var target := MetadataPath(current, Some(Render(outside)));
      && current == imageDir
      && target == Some(Render(outside))
      && AbsPath(target.value, cwd) == outside
      && !(imageDir <= AbsPath(target.value, cwd))
  {
    AbsPathRender(outside, cwd);
  }

  /** The escape on a concrete input: image directory `/srv/img`, no `dir`
      argument, `image=/etc/x.png`. The page stays in `/srv/img`, yet the
      file it reads is `/etc/x.png`. */
  lemma MetadataEscapesImageDir(cwd: Path)
    ensures
      var imageDir: Path := ["srv", "img"];
      var current := CurrentDir(imageDir, cwd, None);
      var target := MetadataPath(current, Some("/etc/x.png"));
      && current == imageDir
      && target == Some("/etc/x.png")
      && AbsPath(target.value, cwd) == ["etc", "x.png"]
      && !(imageDir <= AbsPath(target.value, cwd))
  {
    var imageDir: Path := ["srv", "img"];
    var outside: Path := ["etc", "x.png"];
    assert outside[1..] == ["x.png"];
    assert Join(outside, '/') == "etc" + "/" + "x.png";
    assert Render(outside) == "/etc/x.png";
    assert outside[0] != "srv";
    MetadataIgnoresGuard(imageDir, cwd, outside);
  }
}

=== FILE: wrappers.dfy ===
/** Option and Result, used for Python's `None` and for exceptions raised by the code. */
module Wrappers {

  /** A value that may be absent; `None` stands for Python's `None`. */
  datatype Option<+T> = None | Some(value: T) {

    /** The wrapped value, or `default` when absent (Python's `d.get(k, default)`). */
    function GetOr(default: T): T {
      match this
      case Some(v) => v
      case None => default
    }
  }

  /** Either a value or the error a Python statement would have raised. */
  datatype Result<+R, +E> = Success(value: R) | Failure(error: E) {

    predicate IsFailure() {
      Failure?
    }

    function PropagateFailure<U>(): Result<U, E>
      requires Failure?
    {
      Failure(error)
    }

    function Extract(): R
      requires Success?
    {
      value
    }
  }
}
